=== FILE: README.md ===
# Line-of-sight ray caster: a Dafny model

This project models the viewshed engine of a map application. From one
vantage point it casts rays across a terrain. Along each ray it tracks
the rising horizon angle and reports the stretches of the ray that
terrain hides. A progressive scheduler spreads the rays over small timed
batches at random bearings.

Modules, in dependency order:

- `Wrappers`: `Option`.
- `Arith`: small facts about real multiplication.
- `Horizon`: the horizon-tracking scan over a ray's sample angles. It
  turns samples into blocked segments.
- `Curvature`: the Earth-curvature drop.
- `Viewport`: the capped ray length derived from the viewport corners.
- `Ray`: sampling one ray, `castRay`'s degraded paths, and its segments.
- `Sweep`: the full sweep at a fixed angular step.
- `Progressive`: the batch scheduler. Its states are start, batch, tick
  and stop.
- `Terrain`: rays over flat ground, where the curvature correction alone
  decides what is hidden.

Angles are `real`s. The initial `-Infinity` horizon is the constructor
`Horizon.NegInf`. A segment is a pair of sample indices: `start` is the
visible sample just before a run of blocked samples, and `end` is the
run's last sample. The geodesy, the elevation query, the curvature
adjustment and `atan2` together map a distance along a ray to an elevation
angle. They are folded into one `sight` oracle per ray, which returns
`Sight(angle)` or `Fault` (the computation threw). `Math.random` is a
sequence of drawn bearings consumed in order. The timer between batches is
a `timerArmed` flag that an explicit `Tick` fires.

## Model

| member | source | states |
|---|---|---|
| Horizon.Raise | map.js:393 | The new horizon is at least the old one and at least the sample's angle, and it equals one of them. |
| Horizon.RaySegments | map.js:337-415 | The scan's segments are exactly the maximal runs of blocked samples. Each segment runs from the visible sample before its run to the run's last sample. Segments are ordered, do not overlap, and stay within the ray. |
| Horizon.BlockedIffTallerEarlier | map.js:352-373 | A sample is blocked iff some earlier sample has a strictly greater angle. A tie with the horizon is visible. |
| Horizon.FirstSampleVisible | map.js:352 | Because the horizon starts at -Infinity, sample 0 is never blocked. |
| Horizon.HorizonIsRunningMax | map.js:386-394 | The horizon is -Infinity only before the first sample. Afterwards it is the largest angle seen so far, and a visible sample carries that angle. |
| Horizon.HorizonNeverFalls | map.js:393 | The horizon never decreases from one sample to a later one. |
| Horizon.HorizonMovesOnlyOnVisible | map.js:386-394 | A blocked sample leaves the horizon unchanged. A visible sample becomes the new horizon. |
| Horizon.BlockedSampleInOneSegment | map.js:375-385 | Every blocked sample lies in exactly one segment. |
| Horizon.EveryRunIsASegment | map.js:375-402 | Every maximal run of blocked samples is reported as a segment. This is the converse direction of `RaySegments`' contract. |
| Horizon.OpenRunAtEndIsEmitted | map.js:399-402 | A run still open at the last sample is reported as the last segment, ending at the last sample. |
| Horizon.NonDecreasingProfileIsClear | map.js:373 | A profile whose angles never decrease yields no segment. |
| Horizon.NonDecreasingProfileHasNoRuns | map.js:373 | Any segment list that describes a non-decreasing profile's runs is empty. |
| Horizon.ScanFollowsFlags | map.js:373-402 | The open and emitted segments depend only on which samples are blocked, not on the angles. |
| Horizon.RaySegmentsFollowOrder | map.js:352-402 | Two profiles whose samples compare alike with every earlier sample give the same segments. |
| Ray.SampleDistancesSpanRay | map.js:355-357 | Sample 0 sits at the observer and sample `SAMPLE_POINTS` at `maxDistance`. Sample distances are non-decreasing, and they are positive after sample 0. |
| Ray.Collect | map.js:408-414 | The angles are collected iff no sample throws, and the collected angles are the samples' angles in order. |
| Ray.CastRay | map.js:337-415 | With terrain not loaded, or any sample throwing, the ray yields no segment. Otherwise its segments are the scan's segments of the sample angles and describe their blocked runs, and they are ordered and lie within the ray. |
| Ray.CastRayFollowsOrder | map.js:364-373 | Passing the samples' elevation angles through any strictly increasing function, such as taking the arctangent of a slope, leaves the ray's segments unchanged. |
| Curvature.CurvatureDrop | map.js:330-334 | The drop is never negative, and it is zero exactly at distance 0. |
| Curvature.CurvatureDropAtOrigin | map.js:330-334 | The drop is 0 at distance 0. |
| Curvature.CurvatureDropIncreasing | map.js:330-334 | For non-negative distances, a farther point drops strictly more, and conversely. |
| Curvature.CurvatureDropQuadratic | map.js:330-334 | Scaling the distance by k scales the drop by k squared. |
| Curvature.CurvatureDropBelowCeiling | map.js:45-46 | Within the 100 km ceiling, the drop stays at most its value at 100 km, which is below 785 m. |
| Viewport.Farthest | map.js:320-326 | The result is one of the four corner distances, and it is at least each of them. |
| Viewport.ViewportDistance | map.js:312-327 | The result never exceeds 100 km. It is either the ceiling or a corner distance, and every corner distance is at most the result unless the result is the ceiling. |
| Viewport.ViewportDistanceIsFarthestCorner | map.js:326 | When every corner lies within the ceiling, the result is exactly the farthest corner's distance. |
| Viewport.ViewportDistanceIsCeiling | map.js:326 | When some corner lies beyond the ceiling, the result is the ceiling. |
| Viewport.ViewportDistanceNonNegative | map.js:320-326 | With corner distances that are never negative, the ray length is never negative. |
| Sweep.Bearings | map.js:426 | The sweep's bearings are 0, step, 2·step, …, strictly increasing. All are below 360, and they leave no gap of a full step before 360. |
| Sweep.Assemble | map.js:426-443 | Every feature belongs to one of the bearings and is a segment of that bearing's ray. |
| Sweep.AssembleComplete | map.js:426-443 | Every segment of every ray becomes a feature. |
| Sweep.AssembleDistinct | map.js:426-443 | With pairwise distinct bearings and rays whose segments are ordered and run forward, no feature is listed twice. |
| Sweep.AssembleInRayOrder | map.js:426-443 | With increasing bearings and ordered rays, features are ordered by bearing and then along the ray. |
| Sweep.NoRaysNoFeatures | map.js:426-443 | Rays that report nothing yield no features. |
| Sweep.GenerateLineOfSight | map.js:418-450 | Without a vantage point the result is null. With a vantage point, a throw while reading it or the viewport rejects the call, and only then. With terrain not loaded the collection is empty. Otherwise its features are in ray order, and each comes from a sweep bearing's ray at the viewport distance. |
| Sweep.GenerateLineOfSightComplete | map.js:418-450 | Every blocked segment of every sweep ray is drawn. |
| Sweep.DefaultSweepCasts720Rays | map.js:42 | At the default step of 0.5 degrees the sweep casts exactly 720 rays. |
| Progressive.RoundTenths | map.js:498 | The rounded value is the nearest number of tenths of a degree, with a half rounding up. |
| Progressive.RoundTenthsRange | map.js:495-498 | A bearing drawn in [0, 360) rounds to one of the 3601 values 0 to 3600 tenths. |
| Progressive.RoundTenthsReachesEveryValue | map.js:491-498 | Each of those 3601 values is the rounding of some bearing in [0, 360), so 3000 distinct rounded bearings can be drawn and the loop can finish. |
| Progressive.FillBatch | map.js:491-526 | The inner loop grows the processed set and never lowers the batch count. It only appends features, and it consumes a prefix of the draws. |
| Progressive.FillBatchRecordsConsumed | map.js:497-505 | The processed set grows by exactly the rounded values of the consumed draws. |
| Progressive.FillBatchCounts | map.js:491-505 | The set grows by exactly the batch count. The count never exceeds 45 and the set never exceeds 3000. |
| Progressive.FillBatchStopsWhenFull | map.js:491-492 | The loop stops early only when the batch holds 45 bearings or the run holds 3000. |
| Progressive.DuplicateDrawIsSkipped | map.js:499-501 | A draw whose rounded value was processed already is skipped. It does not count toward the batch and changes nothing else. |
| Progressive.FillBatchFeaturesFromRays | map.js:499-525 | Every new feature comes from a consumed draw whose rounded value was new to the run and whose ray reported that segment. |
| Progressive.FillBatchFeaturesComplete | map.js:499-525 | Every segment of the ray of each consumed draw whose rounded value was new is among the new features. |
| Progressive.FreshDrawsAreNew | map.js:497-505 | The draws that get cast are among the consumed draws, their rounded values were not processed before, and no two of them round to the same value. |
| Progressive.FillBatchFeaturesAreFreshRays | map.js:491-526 | The inner loop's new features are exactly the features of the rays of the freshly rounded consumed draws, ray after ray in draw order and each ray's segments in order. |
| Progressive.FillBatchNoDup | map.js:497-525 | Given rays with ordered, forward-running segments, the inner loop collects no feature twice. |
| Progressive.Batch | map.js:477-571 | The processed set grows and the old features stay a prefix. A batch adds at most 45 bearings and stays within 3000. An active batch without a viewport fault re-arms the timer iff fewer than 3000 bearings are processed, when its host is fault-free or it added no feature, so a render fault was not reached. A viewport fault ends the run and changes nothing else. A render fault ends the run. |
| Progressive.BatchWithoutViewChangesNothing | map.js:477-480 | Without a running flag, loaded terrain or a vantage point, a batch changes nothing but dropping the timer that fired, and it consumes no draw. |
| Progressive.BatchRecordsDraws | map.js:477-571 | Whatever its outcome, a batch records exactly the rounded values of the draws it consumed. |
| Progressive.BatchFeaturesFromRays | map.js:499-530 | Every feature a batch adds lies on the ray cast, at the viewport distance, at one of the draws the batch consumed whose rounded value was new to the run. |
| Progressive.BatchFeaturesComplete | map.js:499-530 | An active batch without a viewport fault adds every segment of the ray of each consumed draw whose rounded value was new. This holds with a render fault too, so the features are kept. |
| Progressive.BatchUsesFill | map.js:487-530 | A batch that reaches the inner loop appends the loop's features after the old ones, takes the loop's processed set and consumes the loop's draws. Any other batch changes neither and consumes nothing. |
| Progressive.BatchNoDup | map.js:497-530 | No feature a batch adds is listed twice. |
| Progressive.BatchProgress | map.js:491-505 | An active batch that does not run out of draws adds exactly min(45, 3000 − size) bearings. |
| Progressive.Start | map.js:459-474 | Starting forgets the earlier run. Its processed set is exactly the rounded values of the draws the first batch consumed, and every feature comes from one of those draws' rays. |
| Progressive.StartWithoutViewIsEmpty | map.js:459-480 | A start without loaded terrain or a vantage point leaves an empty run that is on, has nothing scheduled, and consumes no draw. |
| Progressive.StartFeaturesComplete | map.js:459-474 | Unless reading the view fails, every segment of the ray of each consumed draw with a new rounded value is a feature of the new run. |
| Progressive.StartIsFirstBatch | map.js:459-474 | Starting runs the first batch on an empty run that is on and has nothing scheduled. |
| Progressive.StartNoDup | map.js:459-474 | No feature of a new run is listed twice. |
| Progressive.Stop | map.js:574-580 | Stopping ends the run and cancels the scheduled batch. The bearings and features drawn so far stay. |
| Progressive.Tick | map.js:561-563 | The timer firing never loses bearings or features, casts at most 45 new bearings, and never restarts a stopped run. Without a scheduled batch nothing happens. |
| Progressive.RunTicks | map.js:561-563 | Over any number of firings, bearings and features only accumulate, at most 45 bearings per firing, and a stopped run stays stopped. |
| Progressive.StoppedRunStaysStopped | map.js:574-580 | After a stop, no number of ticks changes anything. |
| Progressive.RunTicksProgress | map.js:491-566 | With a fault-free host, every tick of a steady run casts 45 more bearings, until 3000 are reached. |
| Progressive.StartCastsFirstBatch | map.js:459-474 | With a fault-free host and enough draws, the first batch leaves a run with 45 bearings cast, whose timer is armed exactly while it is running and fewer than 3000 bearings are cast. |
| Progressive.RunCompletes | map.js:477-566 | With a fault-free host and enough draws, a steady run that has cast min(45·k, 3000) bearings casts all 3000 once k plus the number of ticks reaches 67. The first batch after a start plus 66 ticks is enough. The run then ends with nothing scheduled. |
| Terrain.FlatHorizonOrder | map.js:364-373 | Over flat ground, of two samples at distances d1 < d2, the farther is hidden behind the nearer iff d1·d2 > 2·R·h. |
| Terrain.FlatSampleOrder | map.js:355-373 | The same rule holds on the ray's sample grid. |
| Terrain.FlatRayWithinHorizonIsClear | map.js:337-415 | A flat-ground ray no longer than sqrt(2·R·h) reports no segment. |
| Terrain.FlatRayBeyondHorizonIsBlocked | map.js:337-415 | On a flat-ground ray, a sample whose distance times a nearer sample's distance exceeds 2·R·h is covered by a segment. |
| Terrain.DefaultObserverFlatRayIsBlocked | map.js:44-46 | At the default eye height of 1.8 m, the far end of every flat-ground ray of 25 km or more, the 100 km ceiling included, is covered by a segment. |
| Terrain.DefaultObserverShortFlatRayIsClear | map.js:44-46 | At the default eye height, every flat-ground ray of at most 4.7 km is clear. |

## Flat ground beyond the horizon distance

The curvature correction at map.js:364-367 subtracts the curvature drop
from each sample's elevation. On its own, that hides flat ground beyond
the horizon distance sqrt(2·R·h). At the default eye height of 1.8 m this
distance is about 4.8 km, so a flat ray at the 100 km cap is not clear:

- `Terrain.FlatRayWithinHorizonIsClear` and `Terrain.FlatRayBeyondHorizonIsBlocked`
  prove both sides of the boundary.
- `Terrain.DefaultObserverFlatRayIsBlocked` shows that the far end of
  every flat ray of 25 km or more is reported blocked. That includes a
  ray at the 100 km cap.

For flat ground the model compares slopes instead of `atan2` angles.
Because the arctangent is strictly increasing, the two orders agree for
samples beyond the observer, and `Ray.CastRayFollowsOrder` proves that the
reported segments are then the same. The observer's own sample looks straight
down, and its angle is passed in as `nadir`.

## Left out

- The geodesy is not modelled: `calculateDestinationPoint`,
  `calculateAngle`/`atan2` and the map library's `distanceTo`. They are
  floating-point trigonometry. A ray's sample angles come from the
  `sight` oracle, and the corner distances are inputs.
- `getElevation` (map.js:259-271) is a call into the map library. It is
  part of the `sight` oracle. It catches its own errors and falls back to
  elevation 0, so a failed elevation query is a `Sight` at elevation 0,
  never a `Fault`. A `Fault` probe stands for a throw in the geodesy that
  `castRay` calls, such as building a `LngLat` or `distanceTo`
  (map.js:277-279, 301-304).
- Ray.CastRay: segments are sample indices rather than the coordinates
  of the sample points.
- Sweep.Feature: a feature carries its ray's bearing. The full sweep's
  features have no `angle` property in the source, and the progressive
  ones do.
- Sweep.Bearings: requires a positive step. For a step of 0 or less the
  loop at map.js:426 never ends. The default step is 0.5 (map.js:42).
- Sweep.Bearings: the source accumulates `angle += degreeStep` in floating
  point. The model uses the exact multiples of the step, so a rounding
  drift that adds or drops a bearing near 360 is not modelled.
- Progressive: `Math.random` is a finite sequence of draws. A batch that
  exhausts it stops early, and the progress lemmas assume it does not.
  The source draws forever.
- Progressive.RoundTenths: the rounded bearing is kept as whole tenths of
  a degree. `Math.round(x * 10) / 10` as a float would identify the same
  bearings, so the set's behaviour is the same.
- Progressive: `await` suspends the batch between rays. A `stop` or
  `start` interleaved with a running batch is not modelled, and each batch
  runs atomically.
- Progressive: the 10 ms delay and the timer itself are not modelled.
  A pending timer is the `timerArmed` flag, and its firing is `Tick`.
- Progressive: the map-source and layer updates are not modelled. They
  appear only as the `RenderFault` that they may throw.
- Terrain: only flat ground is analysed. General terrain enters through
  the `sight` oracle.
- The UI is left out: map styles, markers, DOM handlers, URL state,
  hover information and formatting are outside the viewshed engine.

=== FILE: arith.dfy ===
/** Facts about real multiplication and division, stated over distinct
    variables so that the solver never has to reason about a square it
    has rewritten on its own. */
module Arith {

  lemma MulLeft(a: real, b: real, c: real)
    requires 0.0 <= a && b <= c
    ensures a * b <= a * c
  {
  }

  lemma MulLeftStrict(a: real, b: real, c: real)
    requires 0.0 < a && b < c
    ensures a * b < a * c
  {
  }

  /** Products of non-negative factors grow strictly when one factor does. */
  lemma MulStrictMono(a: real, b: real, c: real, d: real)
    requires 0.0 <= a <= b && 0.0 <= c <= d && 0.0 < b && 0.0 < d
    requires a < b || c < d
    ensures a * c < b * d
  {
    if a < b {
      MulLeftStrict(d, a, b);
      MulLeft(a, c, d);
      assert a * d == d * a;
      assert d * b == b * d;
    } else {
      MulLeftStrict(b, c, d);
      MulLeft(c, a, b);
      assert c * a == a * c;
      assert c * b == b * c;
    }
  }

  /** A product of two factors of the same strict sign is positive. */
  lemma MulSameSign(a: real, b: real)
    requires (a > 0.0 && b > 0.0) || (a < 0.0 && b < 0.0)
    ensures a * b > 0.0
  {
    if a < 0.0 {
      MulLeftStrict(-a, b, 0.0);
      assert (-a) * b == -(a * b);
    } else {
      MulLeftStrict(a, 0.0, b);
    }
  }

  /** Dividing a positive product by a positive number keeps it positive. */
  lemma ProductOverPositive(a: real, b: real, y: real)
    requires a * b > 0.0 && y > 0.0
    ensures a * b / y > 0.0
  {
  }

  /** Dividing by a positive number keeps the order of two products. */
  lemma ProductsOverMono(a: real, b: real, c: real, d: real, y: real)
    requires a * b < c * d && y > 0.0
    ensures a * b / y < c * d / y
  {
  }

  /** Two factors bounded by `c` have a product bounded by `c * c`. */
  lemma ProductBelowSquare(a: real, b: real, c: real)
    requires 0.0 <= a <= c && 0.0 <= b <= c
    ensures a * b <= c * c
  {
    MulLeft(a, b, c);
    MulLeft(c, a, c);
    assert a * c == c * a;
  }

  /** Scaling by a positive factor and dividing by a positive one keeps
      a strict order. */
  lemma ScaleStrict(m: real, x: real, y: real, n: real)
    requires 0.0 < m && x < y && 0.0 < n
    ensures m * x / n < m * y / n
  {
    MulLeftStrict(m, x, y);
  }
}

=== FILE: curvature.dfy ===
/** Earth-curvature correction of sample elevations. */
module Curvature {
  import Arith

  /** Mean Earth radius in metres. */
  const EARTH_RADIUS: real := 6371000.0

  /** Vertical drop of the Earth's surface below the observer's tangent
      plane at `distance` metres: distance^2 / (2 R). */
  function CurvatureDrop(distance: real): (drop: real)
    ensures drop >= 0.0
    ensures drop == 0.0 <==> distance == 0.0
  {
    assert distance != 0.0 ==> distance * distance / (2.0 * EARTH_RADIUS) > 0.0 by {
      if distance != 0.0 {
        Arith.MulSameSign(distance, distance);
        Arith.ProductOverPositive(distance, distance, 2.0 * EARTH_RADIUS);
      }
    }
    distance * distance / (2.0 * EARTH_RADIUS)
  }

  /** The drop vanishes at the observer. */
  lemma CurvatureDropAtOrigin()
    ensures CurvatureDrop(0.0) == 0.0
  {
  }

  /** Over non-negative distances the drop is strictly increasing, in both
      directions: a farther point drops more, and a larger drop means a
      farther point. */
  lemma CurvatureDropIncreasing(d1: real, d2: real)
    requires 0.0 <= d1 && 0.0 <= d2
    ensures d1 < d2 <==> CurvatureDrop(d1) < CurvatureDrop(d2)
  {
    if d1 < d2 {
      Arith.MulStrictMono(d1, d2, d1, d2);
      Arith.ProductsOverMono(d1, d1, d2, d2, 2.0 * EARTH_RADIUS);
    } else if d2 < d1 {
      Arith.MulStrictMono(d2, d1, d2, d1);
      Arith.ProductsOverMono(d2, d2, d1, d1, 2.0 * EARTH_RADIUS);
    }
  }

  /** The drop is quadratic: scaling the distance by k scales it by k^2. */
  lemma CurvatureDropQuadratic(d: real, k: real)
    ensures CurvatureDrop(k * d) == k * k * CurvatureDrop(d)
  {
    assert (k * d) * (k * d) == (k * k) * (d * d);
  }

  /** At the 100 km ray ceiling the drop stays below 785 m, and every
      shorter distance drops less. */
  lemma CurvatureDropBelowCeiling(d: real)
    requires 0.0 <= d <= 100000.0
    ensures CurvatureDrop(d) <= CurvatureDrop(100000.0) < 785.0
  {
    if d < 100000.0 {
      CurvatureDropIncreasing(d, 100000.0);
    }
  }
}

=== FILE: horizon.dfy ===
/** The horizon-tracking scan at the heart of the ray caster.

    A ray is sampled at indices 0, 1, ..., n-1, and each sample carries
    the elevation angle under which the observer sees it. The scan keeps
    the highest angle met so far (the horizon, initially -Infinity). A
    sample whose angle lies strictly below the horizon is blocked; any
    other sample is visible and raises the horizon to its own angle.
    Consecutive blocked samples are merged into one segment, which runs
    from the visible sample just before the run to the run's last sample.

    `Step` is one iteration of the sampling loop and `StateAfter` folds
    it over a prefix of the samples. `RaySegments` is the loop's output.
    `DescribesRuns` is an independent description of that output in terms
    of maximal runs of blocked samples, and `BlockedIffTallerEarlier` an
    independent description of blocking. */
module Horizon {
  import opened Wrappers

  /** The running maximum angle: `NegInf` stands for the initial -Infinity. */
  datatype Horizon = NegInf | Peak(angle: real)

  /** A blocked segment, as sample indices: `start` is the visible sample
      just before the run of blocked samples, `end` the run's last sample. */
  datatype Segment = Segment(start: nat, end: nat)

  /** The loop state after some samples: the horizon, the segment still
      being extended (if any), and the segments already emitted. */
  datatype ScanState = ScanState(horizon: Horizon, open: Option<Segment>, done: seq<Segment>)

  const Initial: ScanState := ScanState(NegInf, None, [])

  /** A sample at angle `a` is hidden behind horizon `h`; a tie is visible. */
  predicate BlockedBy(h: Horizon, a: real) {
    h.Peak? && a < h.angle
  }

  /** The horizon after a visible sample at angle `a` (`Math.max`). */
  function Raise(h: Horizon, a: real): (r: Horizon)
    ensures r.Peak?
    ensures a <= r.angle
    ensures h.Peak? ==> h.angle <= r.angle
    ensures r.angle == a || (h.Peak? && r.angle == h.angle)
  {
    match h
    case NegInf => Peak(a)
    case Peak(m) => Peak(if m < a then a else m)
  }

  /** One iteration of the sampling loop, for sample `i` at angle `a`. */
  function Step(st: ScanState, i: nat, a: real): ScanState {
    if BlockedBy(st.horizon, a) then
      match st.open
      case None => st.(open := Some(Segment(if i > 0 then i - 1 else 0, i)))
      case Some(seg) => st.(open := Some(seg.(end := i)))
    else
      st.(horizon := Raise(st.horizon, a), open := None, done := st.done + ToSeq(st.open))
  }

  /** The loop state once samples 0 .. k-1 have been processed. */
  function StateAfter(angles: seq<real>, k: nat): ScanState
    requires k <= |angles|
    decreases k
  {
    if k == 0 then Initial else Step(StateAfter(angles, k - 1), k - 1, angles[k - 1])
  }

  /** Sample `i` is blocked: its angle is below the horizon built by the
      samples before it. */
  predicate Blocked(angles: seq<real>, i: nat)
    requires i < |angles|
  {
    BlockedBy(StateAfter(angles, i).horizon, angles[i])
  }

  /** The segments emitted by the state: the finished ones, then the one
      still open (the loop's final `if (currentSegment)` push). */
  function Emit(st: ScanState): seq<Segment> {
    st.done + ToSeq(st.open)
  }

  /** The blocked flag of every sample. */
  function BlockedFlags(angles: seq<real>): (flags: seq<bool>)
    ensures |flags| == |angles|
    ensures forall i :: 0 <= i < |angles| ==> flags[i] == Blocked(angles, i)
  {
    seq(|angles|, i requires 0 <= i < |angles| => Blocked(angles, i))
  }

  /** The blocked segments of a ray whose samples have the given angles. */
  function RaySegments(angles: seq<real>): (segs: seq<Segment>)
    ensures DescribesRuns(angles, segs)
    ensures forall k :: 0 <= k < |segs| ==> segs[k].start < segs[k].end < |angles|
  {
    ScanInvariant(angles, |angles|);
    Emit(StateAfter(angles, |angles|))
  }

  // ---------------------------------------------------------------------
  // Reference description of the output: maximal runs of blocked samples.

  /** Among the first `n` samples, s+1 .. e is a maximal run of blocked
      samples and s is the visible sample just before it. */
  predicate RunWithin(blocked: seq<bool>, n: nat, s: nat, e: nat)
    requires n <= |blocked|
  {
    && s < e < n
    && !blocked[s]
    && (forall k :: s < k <= e ==> blocked[k])
    && (e + 1 == n || !blocked[e + 1])
  }

  /** Some segment of `segs` covers sample `i`. */
  predicate Covered(segs: seq<Segment>, i: nat) {
    exists k :: 0 <= k < |segs| && segs[k].start < i <= segs[k].end
  }

  /** Segments come in increasing order and do not overlap. */
  predicate Ordered(segs: seq<Segment>) {
    forall j, k :: 0 <= j < k < |segs| ==> segs[j].end < segs[k].start
  }

  /** `segs` lists, in order, exactly the maximal blocked runs among the
      first `n` samples. */
  predicate RunsWithin(blocked: seq<bool>, n: nat, segs: seq<Segment>)
    requires n <= |blocked|
  {
    && (forall k :: 0 <= k < |segs| ==> RunWithin(blocked, n, segs[k].start, segs[k].end))
    && Ordered(segs)
    && (forall i :: 0 <= i < n ==> (blocked[i] <==> Covered(segs, i)))
  }

  /** `segs` lists, in order, exactly the maximal runs of blocked samples
      of the ray, each from the visible sample before it to its last sample. */
  predicate DescribesRuns(angles: seq<real>, segs: seq<Segment>) {
    RunsWithin(BlockedFlags(angles), |angles|, segs)
  }

  // ---------------------------------------------------------------------
  // The scan keeps the reference description after every sample.

  /** State `st` has emitted the runs among the first `k` samples, and its
      open segment is the run that ends at sample k-1, if there is one. */
  predicate Tracks(blocked: seq<bool>, k: nat, st: ScanState)
    requires k <= |blocked|
  {
    && RunsWithin(blocked, k, Emit(st))
    && (st.open.Some? <==> (k > 0 && blocked[k - 1]))
    && (st.open.Some? ==> st.open.value.end == k - 1)
  }

  lemma {:induction false} ScanInvariant(angles: seq<real>, k: nat)
    requires k <= |angles|
    ensures Tracks(BlockedFlags(angles), k, StateAfter(angles, k))
    decreases k
  {
    if k > 0 {
      ScanInvariant(angles, k - 1);
      var st := StateAfter(angles, k - 1);
      FirstSampleVisible(angles);
      ScanStep(BlockedFlags(angles), k - 1, st, angles[k - 1]);
    }
  }

  /** Processing sample `k` extends the description from k to k+1 samples. */
  lemma ScanStep(blocked: seq<bool>, k: nat, st: ScanState, a: real)
    requires k < |blocked|
    requires Tracks(blocked, k, st)
    requires blocked[k] == BlockedBy(st.horizon, a)
    requires !blocked[0]
    ensures Tracks(blocked, k + 1, Step(st, k, a))
  {
    if !blocked[k] {
      ScanStepVisible(blocked, k, st, Step(st, k, a));
    } else if st.open.None? {
      ScanStepOpens(blocked, k, st, Step(st, k, a));
    } else {
      ScanStepExtends(blocked, k, st, Step(st, k, a));
    }
  }

  /** Appending a segment that starts after every earlier one ends keeps the order. */
  lemma OrderedSnoc(done: seq<Segment>, seg: Segment)
    requires Ordered(done)
    requires forall j :: 0 <= j < |done| ==> done[j].end < seg.start
    ensures Ordered(done + [seg])
  {
    var segs := done + [seg];
    forall j, k | 0 <= j < k < |segs|
      ensures segs[j].end < segs[k].start
    {
      if k < |done| {
        assert segs[j] == done[j] && segs[k] == done[k];
      }
    }
  }

  /** Every segment of an ordered list ends before the last one starts. */
  lemma OrderedBeforeLast(done: seq<Segment>, seg: Segment)
    requires Ordered(done + [seg])
    ensures Ordered(done)
    ensures forall j :: 0 <= j < |done| ==> done[j].end < seg.start
  {
    var segs := done + [seg];
    forall j | 0 <= j < |done|
      ensures done[j].end < seg.start
    {
      assert segs[j] == done[j] && segs[|done|] == seg;
    }
    forall j, k | 0 <= j < k < |done|
      ensures done[j].end < done[k].start
    {
      assert segs[j] == done[j] && segs[k] == done[k];
    }
  }

  /** A visible sample closes the open segment, if any. */
  lemma ScanStepVisible(blocked: seq<bool>, k: nat, st: ScanState, st': ScanState)
    requires k < |blocked|
    requires Tracks(blocked, k, st)
    requires !blocked[k]
    requires st'.open.None? && Emit(st') == Emit(st)
    ensures Tracks(blocked, k + 1, st')
  {
    var segs := Emit(st);
    forall j | 0 <= j < |segs|
      ensures RunWithin(blocked, k + 1, segs[j].start, segs[j].end)
      ensures !(segs[j].start < k <= segs[j].end)
    {
      assert RunWithin(blocked, k, segs[j].start, segs[j].end);
    }
  }

  /** A segment appended after sample i does not change whether i is covered. */
  lemma CoveredSnoc(segs: seq<Segment>, seg: Segment, i: nat)
    requires i <= seg.start
    ensures Covered(segs + [seg], i) <==> Covered(segs, i)
  {
    var segs' := segs + [seg];
    if Covered(segs', i) {
      var j :| 0 <= j < |segs'| && segs'[j].start < i <= segs'[j].end;
      assert segs'[j] == segs[j];
    }
    if Covered(segs, i) {
      var j :| 0 <= j < |segs| && segs[j].start < i <= segs[j].end;
      assert segs'[j] == segs[j];
    }
  }

  /** A blocked sample after a visible one opens a new segment. */
  lemma ScanStepOpens(blocked: seq<bool>, k: nat, st: ScanState, st': ScanState)
    requires k < |blocked|
    requires Tracks(blocked, k, st)
    requires blocked[k] && st.open.None? && k > 0
    requires st'.open == Some(Segment(k - 1, k)) && st'.done == st.done
    ensures Tracks(blocked, k + 1, st')
  {
    var segs := Emit(st);
    assert segs == st.done;
    var seg := Segment(k - 1, k);
    var segs' := Emit(st');
    assert segs' == segs + [seg];
    assert Ordered(segs') by {
      forall j | 0 <= j < |segs|
        ensures segs[j].end < seg.start
      {
        assert RunWithin(blocked, k, segs[j].start, segs[j].end);
      }
      OrderedSnoc(segs, seg);
    }
    assert forall j :: 0 <= j < |segs'| ==> RunWithin(blocked, k + 1, segs'[j].start, segs'[j].end) by {
      forall j | 0 <= j < |segs'|
        ensures RunWithin(blocked, k + 1, segs'[j].start, segs'[j].end)
      {
        if j < |segs| {
          assert segs'[j] == segs[j];
          assert RunWithin(blocked, k, segs[j].start, segs[j].end);
        }
      }
    }
    forall i | 0 <= i < k + 1
      ensures blocked[i] <==> Covered(segs', i)
    {
      if i < k {
        CoveredSnoc(segs, seg, i);
      } else {
        assert segs'[|segs|].start < i <= segs'[|segs|].end;
      }
    }
  }

  /** A blocked sample after a blocked one extends the open segment. */
  lemma ScanStepExtends(blocked: seq<bool>, k: nat, st: ScanState, st': ScanState)
    requires k < |blocked|
    requires Tracks(blocked, k, st)
    requires blocked[k] && st.open.Some?
    requires st'.open == Some(st.open.value.(end := k)) && st'.done == st.done
    ensures Tracks(blocked, k + 1, st')
  {
    var open := st.open.value;
    var seg := open.(end := k);
    var segs := Emit(st);
    var segs' := Emit(st');
    var last := |segs| - 1;
    assert segs == st.done + [open];
    assert segs' == st.done + [seg];
    assert segs[last] == open;
    assert RunWithin(blocked, k, open.start, open.end);
    OrderedBeforeLast(st.done, open);
    OrderedSnoc(st.done, seg);
    forall j | 0 <= j < |segs'|
      ensures RunWithin(blocked, k + 1, segs'[j].start, segs'[j].end)
    {
      if j < last {
        assert segs'[j] == segs[j];
        assert RunWithin(blocked, k, segs[j].start, segs[j].end);
      }
    }
    forall i | 0 <= i < k + 1
      ensures blocked[i] <==> Covered(segs', i)
    {
      if i < k {
        if Covered(segs, i) {
          var j :| 0 <= j < |segs| && segs[j].start < i <= segs[j].end;
          assert segs'[j].start < i <= segs'[j].end;
        }
        if Covered(segs', i) {
          var j :| 0 <= j < |segs'| && segs'[j].start < i <= segs'[j].end;
          if j == last {
            assert segs[last].start < i <= segs[last].end;
          } else {
            assert segs[j] == segs'[j];
          }
        }
      } else {
        assert segs'[last].start < i <= segs'[last].end;
      }
    }
  }

  // ---------------------------------------------------------------------
  // The horizon.

  /** The horizon is -Infinity exactly before the first sample; after that
      it is the largest angle seen so far, and a visible sample carries it. */
  lemma {:induction false} HorizonIsRunningMax(angles: seq<real>, k: nat)
    requires k <= |angles|
    ensures StateAfter(angles, k).horizon.NegInf? <==> k == 0
    ensures k > 0 ==> forall j :: 0 <= j < k ==> angles[j] <= StateAfter(angles, k).horizon.angle
    ensures k > 0 ==> exists j :: 0 <= j < k && !Blocked(angles, j)
                                && angles[j] == StateAfter(angles, k).horizon.angle
    decreases k
  {
    if k > 0 {
      HorizonIsRunningMax(angles, k - 1);
      var h := StateAfter(angles, k - 1).horizon;
      var h' := StateAfter(angles, k).horizon;
      if Blocked(angles, k - 1) {
        assert h' == h;
        var j :| 0 <= j < k - 1 && !Blocked(angles, j) && angles[j] == h.angle;
      } else if k - 1 > 0 {
        var j :| 0 <= j < k - 1 && !Blocked(angles, j) && angles[j] == h.angle;
        assert h.angle <= angles[k - 1];
        assert h' == Peak(angles[k - 1]);
      } else {
        assert h' == Peak(angles[0]);
      }
    }
  }

  /** Blocking rule, stated without the running state: a sample is blocked
      exactly when some earlier sample lies strictly higher. A tie with the
      highest earlier sample is therefore visible. */
  lemma BlockedIffTallerEarlier(angles: seq<real>, i: nat)
    requires i < |angles|
    ensures Blocked(angles, i) <==> exists j :: 0 <= j < i && angles[i] < angles[j]
  {
    HorizonIsRunningMax(angles, i);
  }

  /** Any list of segments that describes the runs of a profile whose
      angles never decrease is empty. */
  lemma NonDecreasingProfileHasNoRuns(angles: seq<real>, segs: seq<Segment>)
    requires forall i, j :: 0 <= i <= j < |angles| ==> angles[i] <= angles[j]
    requires DescribesRuns(angles, segs)
    ensures segs == []
  {
    if segs != [] {
      var e := segs[0].end;
      assert BlockedFlags(angles)[e];
      BlockedIffTallerEarlier(angles, e);
    }
  }

  /** Because the horizon starts at -Infinity, the first sample is visible. */
  lemma FirstSampleVisible(angles: seq<real>)
    requires |angles| > 0
    ensures !Blocked(angles, 0)
  {
  }

  /** The horizon never falls from one sample to a later one. */
  lemma {:induction false} HorizonNeverFalls(angles: seq<real>, j: nat, k: nat)
    requires 0 < j <= k <= |angles|
    ensures StateAfter(angles, j).horizon.Peak?
    ensures StateAfter(angles, j).horizon.angle <= StateAfter(angles, k).horizon.angle
    decreases k - j
  {
    HorizonIsRunningMax(angles, j);
    if j < k {
      HorizonNeverFalls(angles, j, k - 1);
      HorizonIsRunningMax(angles, k - 1);
    }
  }

  /** Only visible samples move the horizon, and a visible sample becomes
      the new horizon (its angle is at least the old one). */
  lemma HorizonMovesOnlyOnVisible(angles: seq<real>, i: nat)
    requires i < |angles|
    ensures Blocked(angles, i) ==> StateAfter(angles, i + 1).horizon == StateAfter(angles, i).horizon
    ensures !Blocked(angles, i) ==> StateAfter(angles, i + 1).horizon == Peak(angles[i])
  {
  }

  /** A profile whose angles never decrease has no blocked segment. */
  lemma NonDecreasingProfileIsClear(angles: seq<real>)
    requires forall i, j :: 0 <= i <= j < |angles| ==> angles[i] <= angles[j]
    ensures RaySegments(angles) == []
  {
    var segs := RaySegments(angles);
    if segs != [] {
      var e := segs[0].end;
      assert Blocked(angles, e);
      BlockedIffTallerEarlier(angles, e);
    }
  }

  /** Every blocked sample sits inside exactly one segment. */
  lemma BlockedSampleInOneSegment(angles: seq<real>, i: nat)
    requires i < |angles| && Blocked(angles, i)
    ensures exists k :: 0 <= k < |RaySegments(angles)|
                        && RaySegments(angles)[k].start < i <= RaySegments(angles)[k].end
    ensures forall j, k :: 0 <= j < k < |RaySegments(angles)|
                        && RaySegments(angles)[j].start < i <= RaySegments(angles)[j].end
                        ==> !(RaySegments(angles)[k].start < i <= RaySegments(angles)[k].end)
  {
    var segs := RaySegments(angles);
    assert Covered(segs, i);
  }

  /** Every maximal run of blocked samples is reported, as the segment
      from the visible sample before it to its last sample. Together with
      `RaySegments`' own contract, runs and segments correspond one to one. */
  lemma EveryRunIsASegment(angles: seq<real>, s: nat, e: nat)
    requires RunWithin(BlockedFlags(angles), |angles|, s, e)
    ensures Segment(s, e) in RaySegments(angles)
  {
    var blocked := BlockedFlags(angles);
    var segs := RaySegments(angles);
    assert blocked[e];
    var k :| 0 <= k < |segs| && segs[k].start < e <= segs[k].end;
    var seg := segs[k];
    assert RunWithin(blocked, |angles|, seg.start, seg.end);
    assert seg == Segment(s, e);
  }

  /** A run still open at the last sample is reported too: it is the last
      segment, and it ends at the last sample. */
  lemma OpenRunAtEndIsEmitted(angles: seq<real>)
    requires |angles| > 0 && Blocked(angles, |angles| - 1)
    ensures RaySegments(angles) != []
    ensures RaySegments(angles)[|RaySegments(angles)| - 1].end == |angles| - 1
  {
    var n := |angles|;
    var segs := RaySegments(angles);
    assert BlockedFlags(angles)[n - 1];
    var k :| 0 <= k < |segs| && segs[k].start < n - 1 <= segs[k].end;
  }

  // ---------------------------------------------------------------------
  // Only the order of the angles matters.

  /** The segments the scan has opened and emitted depend only on which
      samples are blocked, not on the angles themselves. */
  lemma {:induction false} ScanFollowsFlags(a: seq<real>, b: seq<real>, k: nat)
    requires k <= |a| && |a| == |b|
    requires forall i :: 0 <= i < k ==> Blocked(a, i) == Blocked(b, i)
    ensures StateAfter(a, k).open == StateAfter(b, k).open
    ensures StateAfter(a, k).done == StateAfter(b, k).done
    decreases k
  {
    if k > 0 {
      ScanFollowsFlags(a, b, k - 1);
      var sa := StateAfter(a, k - 1);
      var sb := StateAfter(b, k - 1);
      assert StateAfter(a, k) == Step(sa, k - 1, a[k - 1]);
      assert StateAfter(b, k) == Step(sb, k - 1, b[k - 1]);
      assert BlockedBy(sa.horizon, a[k - 1]) == BlockedBy(sb.horizon, b[k - 1]) by {
        assert Blocked(a, k - 1) == Blocked(b, k - 1);
      }
    }
  }

  /** Two profiles whose samples compare alike with every earlier sample
      have the same blocked segments: any strictly increasing change of
      the angle scale, such as taking the arctangent of slopes, leaves the
      output of the scan unchanged. */
  lemma RaySegmentsFollowOrder(a: seq<real>, b: seq<real>)
    requires |a| == |b|
    requires forall i, j :: 0 <= j < i < |a| ==> (a[i] < a[j] <==> b[i] < b[j])
    ensures RaySegments(a) == RaySegments(b)
  {
    forall i | 0 <= i < |a|
      ensures Blocked(a, i) == Blocked(b, i)
    {
      BlockedIffTallerEarlier(a, i);
      BlockedIffTallerEarlier(b, i);
    }
    ScanFollowsFlags(a, b, |a|);
  }
}

=== FILE: progressive.dfy ===
/** The progressive sweep: rays are cast in small batches at random
    bearings, duplicates (after rounding to a tenth of a degree) are
    skipped, and every batch appends its features to the ones already
    drawn, until enough distinct bearings have been cast.

    `Math.random` becomes an oracle sequence of drawn bearings in [0, 360)
    that the batches consume in order, and the timer between two batches
    becomes the `timerArmed` flag plus an explicit `Tick` step. */
module Progressive {
  import opened Horizon
  import opened Viewport
  import opened Sweep

  /** New bearings cast by one batch, at most. */
  const ANGLES_PER_ITERATION: nat := 45

  /** Distinct bearings after which the run is complete. */
  const TOTAL_ANGLES: nat := 3000

  /** What can go wrong on the host side of a batch: reading the vantage
      point or the viewport throws before any ray is cast, or handing the
      features to the map throws after they were recorded. */
  datatype HostFault = NoFault | ViewportFault | RenderFault

  /** The host around the scheduler: whether a vantage point is set, which
      fault (if any) the next batch meets, and the scene the rays look at. */
  datatype Host = Host(hasVantage: bool, fault: HostFault, scene: Scene)

  /** The scheduler's state: the running flag, whether a next batch is
      scheduled, the rounded bearings already cast (in tenths of a degree)
      and the features drawn so far. */
  datatype Scheduler = Scheduler(running: bool, timerArmed: bool, processed: set<int>, features: seq<Feature>)

  /** A state after a step, with the draws the step did not consume. */
  datatype Outcome = Outcome(state: Scheduler, rest: seq<real>)

  /** `Math.round(angle * 10)`: the nearest whole number of tenths, a
      half rounding up. */
  function RoundTenths(angle: real): (r: int)
    ensures angle * 10.0 - 0.5 < r as real <= angle * 10.0 + 0.5
  {
    (angle * 10.0 + 0.5).Floor
  }

  /** A drawn bearing in [0, 360) rounds to one of the 3601 values
      0 .. 3600. */
  lemma RoundTenthsRange(angle: real)
    requires 0.0 <= angle < 360.0
    ensures 0 <= RoundTenths(angle) <= 3600
  {
  }

  /** Every one of those 3601 values is the rounding of some bearing in
      [0, 360), so the run's 3000 distinct rounded bearings can be drawn. */
  lemma RoundTenthsReachesEveryValue(n: int)
    requires 0 <= n <= 3600
    ensures exists a :: 0.0 <= a < 360.0 && RoundTenths(a) == n
  {
    if n < 3600 {
      var a := n as real / 10.0;
      assert a * 10.0 + 0.5 == n as real + 0.5;
      assert RoundTenths(a) == n;
    } else {
      assert RoundTenths(359.95) == 3600;
    }
  }

  /** The rounded values of a list of draws. */
  function RoundedSet(draws: seq<real>): set<int> {
    if draws == [] then {} else {RoundTenths(draws[0])} + RoundedSet(draws[1..])
  }

  /** What the inner loop of a batch leaves behind: the rounded bearings
      cast so far, the number cast in this batch, the features collected,
      and how many draws it consumed. */
  datatype Fill = Fill(processed: set<int>, count: nat, features: seq<Feature>, used: nat)

  /** The inner loop of a batch. While fewer than ANGLES_PER_ITERATION
      bearings were cast in this batch and fewer than TOTAL_ANGLES in the
      run, draw a bearing; skip it if its rounded value was cast already,
      otherwise record it, cast its ray and keep its features. The loop
      also stops when the oracle runs dry. */
  function FillBatch(cast: real -> seq<Segment>, processed: set<int>, count: nat,
                     features: seq<Feature>, draws: seq<real>): (r: Fill)
    ensures processed <= r.processed && count <= r.count
    ensures features <= r.features
    ensures r.used <= |draws|
    decreases |draws|
  {
    if count >= ANGLES_PER_ITERATION || |processed| >= TOTAL_ANGLES || draws == [] then
      Fill(processed, count, features, 0)
    else
      var angle := draws[0];
      var rounded := RoundTenths(angle);
      var r := if rounded in processed then
        FillBatch(cast, processed, count, features, draws[1..])
      else
        FillBatch(cast, processed + {rounded}, count + 1,
                  features + FeaturesOf(angle, cast(angle)), draws[1..]);
      r.(used := r.used + 1)
  }

  /** The inner loop records exactly the rounded values of the draws it
      consumed: duplicates add nothing, and every new value is recorded. */
  lemma {:induction false} FillBatchRecordsConsumed(cast: real -> seq<Segment>, processed: set<int>,
                                                    count: nat, features: seq<Feature>, draws: seq<real>)
    ensures var r := FillBatch(cast, processed, count, features, draws);
            r.processed == processed + RoundedSet(draws[..r.used])
    decreases |draws|
  {
    if count >= ANGLES_PER_ITERATION || |processed| >= TOTAL_ANGLES || draws == [] {
      assert draws[..0] == [];
    } else {
      var rounded := RoundTenths(draws[0]);
      var r := FillBatch(cast, processed, count, features, draws);
      assert draws[..r.used][1..] == draws[1..][..r.used - 1];
      if rounded in processed {
        FillBatchRecordsConsumed(cast, processed, count, features, draws[1..]);
      } else {
        FillBatchRecordsConsumed(cast, processed + {rounded}, count + 1,
                                 features + FeaturesOf(draws[0], cast(draws[0])), draws[1..]);
      }
    }
  }

  /** Every bearing the inner loop casts is a new one, so the number of
      recorded rounded bearings grows by the batch's count exactly; the
      loop never exceeds the batch size or the run's total. */
  lemma {:induction false} FillBatchCounts(cast: real -> seq<Segment>, processed: set<int>,
                                           count: nat, features: seq<Feature>, draws: seq<real>)
    ensures var r := FillBatch(cast, processed, count, features, draws);
            && |r.processed| == |processed| + (r.count - count)
            && (count <= ANGLES_PER_ITERATION ==> r.count <= ANGLES_PER_ITERATION)
            && (|processed| <= TOTAL_ANGLES ==> |r.processed| <= TOTAL_ANGLES)
    decreases |draws|
  {
    if !(count >= ANGLES_PER_ITERATION || |processed| >= TOTAL_ANGLES || draws == []) {
      var rounded := RoundTenths(draws[0]);
      if rounded in processed {
        FillBatchCounts(cast, processed, count, features, draws[1..]);
      } else {
        FillBatchCounts(cast, processed + {rounded}, count + 1,
                        features + FeaturesOf(draws[0], cast(draws[0])), draws[1..]);
      }
    }
  }

  /** The inner loop leaves draws unconsumed only once the batch or the
      run is full. */
  lemma {:induction false} FillBatchStopsWhenFull(cast: real -> seq<Segment>, processed: set<int>,
                                                  count: nat, features: seq<Feature>, draws: seq<real>)
    ensures var r := FillBatch(cast, processed, count, features, draws);
            r.used < |draws| ==> r.count >= ANGLES_PER_ITERATION || |r.processed| >= TOTAL_ANGLES
    decreases |draws|
  {
    if !(count >= ANGLES_PER_ITERATION || |processed| >= TOTAL_ANGLES || draws == []) {
      var rounded := RoundTenths(draws[0]);
      if rounded in processed {
        FillBatchStopsWhenFull(cast, processed, count, features, draws[1..]);
      } else {
        FillBatchStopsWhenFull(cast, processed + {rounded}, count + 1,
                               features + FeaturesOf(draws[0], cast(draws[0])), draws[1..]);
      }
    }
  }

  /** A drawn bearing whose rounded value was cast already is skipped: it
      is consumed but neither counts toward the batch nor changes
      anything else. */
  lemma DuplicateDrawIsSkipped(cast: real -> seq<Segment>, processed: set<int>, count: nat,
                               features: seq<Feature>, angle: real, rest: seq<real>)
    requires count < ANGLES_PER_ITERATION && |processed| < TOTAL_ANGLES
    requires RoundTenths(angle) in processed
    ensures var r := FillBatch(cast, processed, count, features, [angle] + rest);
            r == FillBatch(cast, processed, count, features, rest).(used := r.used)
  {
    assert ([angle] + rest)[1..] == rest;
  }

  /** Every feature the inner loop collects belongs to a consumed draw
      whose rounded value was new to the run and whose ray reported that
      segment. */
  lemma {:induction false} FillBatchFeaturesFromRays(cast: real -> seq<Segment>, processed: set<int>,
                                                     count: nat, features: seq<Feature>, draws: seq<real>)
    ensures var r := FillBatch(cast, processed, count, features, draws);
            forall f :: f in r.features[|features|..] ==>
              f.bearing in draws[..r.used] && RoundTenths(f.bearing) !in processed
              && f.segment in cast(f.bearing)
    decreases |draws|
  {
    var r := FillBatch(cast, processed, count, features, draws);
    if !(count >= ANGLES_PER_ITERATION || |processed| >= TOTAL_ANGLES || draws == []) {
      var angle := draws[0];
      var rounded := RoundTenths(angle);
      FillBatchStep(cast, processed, count, features, draws);
      TakeCons(draws, r.used - 1);
      if rounded in processed {
        FillBatchFeaturesFromRays(cast, processed, count, features, draws[1..]);
      } else {
        var head := FeaturesOf(angle, cast(angle));
        var features' := features + head;
        var r' := FillBatch(cast, processed + {rounded}, count + 1, features', draws[1..]);
        FillBatchFeaturesFromRays(cast, processed + {rounded}, count + 1, features', draws[1..]);
        assert r.features[|features|..] == head + r'.features[|features'|..];
        forall f | f in r.features[|features|..]
          ensures f.bearing in draws[..r.used] && RoundTenths(f.bearing) !in processed
                  && f.segment in cast(f.bearing)
        {
          if f in head {
            var k :| 0 <= k < |head| && head[k] == f;
            assert f == Feature(angle, cast(angle)[k]);
          } else {
            assert f in r'.features[|features'|..];
          }
        }
      }
    }
  }

  /** Conversely, every segment of the ray of a consumed draw whose
      rounded value was new (to the run and to the draws before it) is
      among the features the inner loop collects. */
  lemma {:induction false} FillBatchFeaturesComplete(cast: real -> seq<Segment>, processed: set<int>,
                                                     count: nat, features: seq<Feature>, draws: seq<real>,
                                                     i: nat, k: nat)
    requires i < FillBatch(cast, processed, count, features, draws).used
    requires RoundTenths(draws[i]) !in processed + RoundedSet(draws[..i])
    requires k < |cast(draws[i])|
    ensures Feature(draws[i], cast(draws[i])[k])
            in FillBatch(cast, processed, count, features, draws).features[|features|..]
    decreases |draws|
  {
    var angle := draws[0];
    var rounded := RoundTenths(angle);
    var g := Feature(draws[i], cast(draws[i])[k]);
    assert !(count >= ANGLES_PER_ITERATION || |processed| >= TOTAL_ANGLES || draws == []);
    FillBatchStep(cast, processed, count, features, draws);
    if i == 0 {
      var head := FeaturesOf(angle, cast(angle));
      var r' := FillBatch(cast, processed + {rounded}, count + 1, features + head, draws[1..]);
      assert r'.features[|features| + k] == g;
    } else {
      RoundedSetCons(draws, i);
      if rounded in processed {
        FillBatchFeaturesComplete(cast, processed, count, features, draws[1..], i - 1, k);
      } else {
        var features' := features + FeaturesOf(angle, cast(angle));
        FillBatchFeaturesComplete(cast, processed + {rounded}, count + 1, features', draws[1..], i - 1, k);
        var r' := FillBatch(cast, processed + {rounded}, count + 1, features', draws[1..]);
        InLaterSuffix(r'.features, |features|, |features'|, g);
      }
    }
  }

  /** Peeling the first draw off a non-empty prefix of the draws. */
  lemma RoundedSetCons(draws: seq<real>, i: nat)
    requires 0 < i < |draws|
    ensures draws[i] == draws[1..][i - 1]
    ensures RoundedSet(draws[..i]) == {RoundTenths(draws[0])} + RoundedSet(draws[1..][..i - 1])
  {
    assert draws[..i][1..] == draws[1..][..i - 1];
  }

  /** An element of a suffix is an element of every longer suffix. */
  lemma InLaterSuffix<T>(xs: seq<T>, a: nat, b: nat, x: T)
    requires a <= b <= |xs| && x in xs[b..]
    ensures x in xs[a..]
  {
    var m :| 0 <= m < |xs[b..]| && xs[b..][m] == x;
    assert xs[a..][b - a + m] == x;
  }

  /** The draws that are cast, in draw order: each draw whose rounded
      value is neither in `seen` nor the rounding of an earlier draw. */
  function FreshDraws(seen: set<int>, draws: seq<real>): seq<real>
    decreases |draws|
  {
    if draws == [] then []
    else if RoundTenths(draws[0]) in seen then FreshDraws(seen, draws[1..])
    else [draws[0]] + FreshDraws(seen + {RoundTenths(draws[0])}, draws[1..])
  }

  /** The fresh draws of a list, taken from its first draw on. */
  lemma FreshDrawsCons(seen: set<int>, a: real, xs: seq<real>)
    ensures FreshDraws(seen, [a] + xs)
            == if RoundTenths(a) in seen then FreshDraws(seen, xs)
               else [a] + FreshDraws(seen + {RoundTenths(a)}, xs)
  {
    assert ([a] + xs)[0] == a && ([a] + xs)[1..] == xs;
  }

  /** The fresh draws are new to `seen` and round to pairwise distinct
      values, so no bearing is cast twice. */
  lemma {:induction false} FreshDrawsAreNew(seen: set<int>, draws: seq<real>)
    ensures forall x :: x in FreshDraws(seen, draws) ==> x in draws && RoundTenths(x) !in seen
    ensures forall i, j :: 0 <= i < j < |FreshDraws(seen, draws)| ==>
              RoundTenths(FreshDraws(seen, draws)[i]) != RoundTenths(FreshDraws(seen, draws)[j])
    decreases |draws|
  {
    if draws != [] {
      var a := draws[0];
      assert forall x :: x in draws[1..] ==> x in draws;
      if RoundTenths(a) in seen {
        FreshDrawsAreNew(seen, draws[1..]);
      } else {
        var seen' := seen + {RoundTenths(a)};
        FreshDrawsAreNew(seen', draws[1..]);
        var fs := FreshDraws(seen, draws);
        var rest := FreshDraws(seen', draws[1..]);
        assert fs == [a] + rest;
        forall i, j | 0 <= i < j < |fs|
          ensures RoundTenths(fs[i]) != RoundTenths(fs[j])
        {
          assert fs[j] == rest[j - 1];
          if i > 0 {
            assert fs[i] == rest[i - 1];
          } else {
            assert fs[j] in rest;
          }
        }
      }
    }
  }

  /** The inner loop's new features are exactly the features of the rays
      of the fresh consumed draws, ray after ray in draw order and each
      ray's segments in its own order, as the full sweep lists them. */
  lemma {:induction false} FillBatchFeaturesAreFreshRays(cast: real -> seq<Segment>, processed: set<int>,
                                                         count: nat, features: seq<Feature>, draws: seq<real>)
    ensures var r := FillBatch(cast, processed, count, features, draws);
            r.features == features + Assemble(FreshDraws(processed, draws[..r.used]), cast)
    decreases |draws|
  {
    var r := FillBatch(cast, processed, count, features, draws);
    if count >= ANGLES_PER_ITERATION || |processed| >= TOTAL_ANGLES || draws == [] {
      assert draws[..r.used] == [];
    } else {
      var angle := draws[0];
      var rounded := RoundTenths(angle);
      var unseen := rounded !in processed;
      var processed' := if unseen then processed + {rounded} else processed;
      var count' := if unseen then count + 1 else count;
      var features' := if unseen then features + FeaturesOf(angle, cast(angle)) else features;
      var r' := FillBatch(cast, processed', count', features', draws[1..]);
      var later := draws[1..][..r'.used];
      FillBatchStep(cast, processed, count, features, draws);
      FillBatchFeaturesAreFreshRays(cast, processed', count', features', draws[1..]);
      TakeCons(draws, r'.used);
      FreshDrawsCons(processed, angle, later);
      if unseen {
        AssembleCons(angle, FreshDraws(processed', later), cast);
        AppendAssoc(features, FeaturesOf(angle, cast(angle)), Assemble(FreshDraws(processed', later), cast));
      }
    }
  }

  /** One turn of the inner loop: a draw that does not end the batch is
      consumed, and the loop goes on with the rest of the draws. */
  lemma FillBatchStep(cast: real -> seq<Segment>, processed: set<int>, count: nat,
                      features: seq<Feature>, draws: seq<real>)
    requires count < ANGLES_PER_ITERATION && |processed| < TOTAL_ANGLES && draws != []
    ensures var rounded := RoundTenths(draws[0]);
            var r := FillBatch(cast, processed, count, features, draws);
            var r' := if rounded in processed then FillBatch(cast, processed, count, features, draws[1..])
                      else FillBatch(cast, processed + {rounded}, count + 1,
                                     features + FeaturesOf(draws[0], cast(draws[0])), draws[1..]);
            r.features == r'.features && r.used == r'.used + 1
  {
  }

  /** Taking n + 1 draws is taking the first draw, then n of the rest. */
  lemma TakeCons<T>(xs: seq<T>, n: nat)
    requires n < |xs|
    ensures xs[..n + 1] == [xs[0]] + xs[1..][..n]
  {
  }

  /** Appending is associative. */
  lemma AppendAssoc<T>(a: seq<T>, b: seq<T>, c: seq<T>)
    ensures a + (b + c) == (a + b) + c
  {
  }

  /** No feature is collected twice by the inner loop, given rays whose
      segments are in order and run forward, as every cast ray's are. */
  lemma FillBatchNoDup(cast: real -> seq<Segment>, processed: set<int>,
                       count: nat, features: seq<Feature>, draws: seq<real>)
    requires forall a :: Ordered(cast(a))
    requires forall a, k :: 0 <= k < |cast(a)| ==> cast(a)[k].start <= cast(a)[k].end
    ensures NoRepeats(FillBatch(cast, processed, count, features, draws).features[|features|..])
  {
    var r := FillBatch(cast, processed, count, features, draws);
    var newDraws := FreshDraws(processed, draws[..r.used]);
    FillBatchFeaturesAreFreshRays(cast, processed, count, features, draws);
    FreshDrawsAreNew(processed, draws[..r.used]);
    assert r.features[|features|..] == Assemble(newDraws, cast);
    AssembleDistinct(newDraws, cast);
  }

  function Min(a: int, b: int): int {
    if a <= b then a else b
  }

  /** The ray a batch casts at a bearing: it reaches as far as the
      viewport distance of the host's current view. */
  function Caster(host: Host): real -> seq<Segment> {
    bearing => RayAt(host.scene, ViewportDistance(host.scene.corners), bearing)
  }

  /** A batch finds its preconditions met: the run is on, the terrain is
      loaded and a vantage point is set. */
  predicate Active(s: Scheduler, host: Host) {
    s.running && host.scene.terrainLoaded && host.hasVantage
  }

  /** One batch. Without an active run it does nothing. A fault reading
      the view ends the run before anything is drawn. Otherwise it fills
      the batch, appends the new features and re-arms the timer while
      fewer than TOTAL_ANGLES bearings were cast; a fault while handing
      non-empty new features to the map ends the run, the features kept. */
  function Batch(s: Scheduler, host: Host, draws: seq<real>): (o: Outcome)
    ensures s.processed <= o.state.processed && s.features <= o.state.features
    ensures |o.rest| <= |draws| && o.rest == draws[|draws| - |o.rest|..]
    ensures |o.state.processed| <= |s.processed| + ANGLES_PER_ITERATION
    ensures |s.processed| <= TOTAL_ANGLES ==> |o.state.processed| <= TOTAL_ANGLES
    ensures o.state.timerArmed ==> o.state.running && |o.state.processed| < TOTAL_ANGLES
    ensures o.state.running ==> s.running
    ensures o.state.running ==> host.fault == NoFault || o.state.features == s.features
    ensures Active(s, host) && host.fault != ViewportFault
            && (host.fault == NoFault || o.state.features == s.features) ==>
              o.state.timerArmed == o.state.running
              && (o.state.running <==> |o.state.processed| < TOTAL_ANGLES)
    ensures Active(s, host) && host.fault == ViewportFault ==>
              !o.state.running && o.state.processed == s.processed
              && o.state.features == s.features && o.rest == draws
  {
    if !Active(s, host) then
      Outcome(s.(timerArmed := false), draws)
    else if host.fault == ViewportFault then
      Outcome(s.(running := false, timerArmed := false), draws)
    else
      var f := FillBatch(Caster(host), s.processed, 0, [], draws);
      FillBatchCounts(Caster(host), s.processed, 0, [], draws);
      var more := |f.processed| < TOTAL_ANGLES && !(host.fault == RenderFault && f.features != []);
      Outcome(Scheduler(more, more, f.processed, s.features + f.features), draws[f.used..])
  }

  /** Without a running flag, loaded terrain or a vantage point, a batch
      returns at once: it only drops the timer that fired, and consumes
      no draw. */
  lemma BatchWithoutViewChangesNothing(s: Scheduler, host: Host, draws: seq<real>)
    requires !Active(s, host)
    ensures Batch(s, host, draws) == Outcome(s.(timerArmed := false), draws)
  {
  }

  /** A batch records exactly the rounded values of the draws it
      consumed, whatever its outcome. */
  lemma BatchRecordsDraws(s: Scheduler, host: Host, draws: seq<real>)
    ensures var o := Batch(s, host, draws);
            o.state.processed == s.processed + RoundedSet(draws[..|draws| - |o.rest|])
  {
    var o := Batch(s, host, draws);
    var f := FillBatch(Caster(host), s.processed, 0, [], draws);
    BatchUsesFill(s, host, draws);
    FillBatchRecordsConsumed(Caster(host), s.processed, 0, [], draws);
    RecordsTransfer(s.processed, draws, Active(s, host) && host.fault != ViewportFault,
                    f.processed, f.used, o.state.processed, |draws| - |o.rest|);
  }

  /** A batch records the inner loop's bearings when it runs the loop,
      and none otherwise; either way, those of the draws it consumed. */
  lemma RecordsTransfer(processed: set<int>, draws: seq<real>, ran: bool,
                        loopProcessed: set<int>, loopUsed: nat, after: set<int>, used: int)
    requires loopUsed <= |draws| && loopProcessed == processed + RoundedSet(draws[..loopUsed])
    requires ran ==> after == loopProcessed && used == loopUsed
    requires !ran ==> after == processed && used == 0
    ensures after == processed + RoundedSet(draws[..used])
  {
    if !ran {
      assert draws[..used] == [];
    }
  }

  /** Every feature a batch adds lies on the ray it cast, at the viewport
      distance, at one of the draws it consumed, whose rounded value was
      new to the run. */
  lemma BatchFeaturesFromRays(s: Scheduler, host: Host, draws: seq<real>)
    ensures var o := Batch(s, host, draws);
            forall f :: f in o.state.features[|s.features|..] ==>
              f.bearing in draws[..|draws| - |o.rest|] && RoundTenths(f.bearing) !in s.processed
              && f.segment in RayAt(host.scene, ViewportDistance(host.scene.corners), f.bearing)
  {
    var o := Batch(s, host, draws);
    BatchUsesFill(s, host, draws);
    FromRaysTransfer(Caster(host), s.processed, draws, Active(s, host) && host.fault != ViewportFault,
                     s.features, o.state.features, |draws| - |o.rest|);
  }

  /** A batch adds the inner loop's features when it runs the loop, and
      none otherwise; either way each lies on the ray of a consumed draw
      whose rounded value was new to the run. */
  lemma FromRaysTransfer(cast: real -> seq<Segment>, processed: set<int>, draws: seq<real>, ran: bool,
                         before: seq<Feature>, after: seq<Feature>, used: int)
    requires ran ==> after == before + FillBatch(cast, processed, 0, [], draws).features
                     && used == FillBatch(cast, processed, 0, [], draws).used
    requires !ran ==> after == before && used == 0
    ensures 0 <= used <= |draws| && |before| <= |after|
    ensures forall f :: f in after[|before|..] ==>
              f.bearing in draws[..used] && RoundTenths(f.bearing) !in processed && f.segment in cast(f.bearing)
  {
    if ran {
      FillBatchFeaturesFromRays(cast, processed, 0, [], draws);
      assert after[|before|..] == FillBatch(cast, processed, 0, [], draws).features;
    } else {
      assert after[|before|..] == [];
    }
  }

  /** Conversely, an active batch that meets no viewport fault keeps every
      segment of the ray of each consumed draw whose rounded value was new,
      whether or not handing the features to the map then fails. */
  lemma BatchFeaturesComplete(s: Scheduler, host: Host, draws: seq<real>, i: nat, k: nat)
    requires Active(s, host) && host.fault != ViewportFault
    requires i < |draws| - |Batch(s, host, draws).rest|
    requires RoundTenths(draws[i]) !in s.processed + RoundedSet(draws[..i])
    requires k < |RayAt(host.scene, ViewportDistance(host.scene.corners), draws[i])|
    ensures Feature(draws[i], RayAt(host.scene, ViewportDistance(host.scene.corners), draws[i])[k])
            in Batch(s, host, draws).state.features[|s.features|..]
  {
    var o := Batch(s, host, draws);
    var f := FillBatch(Caster(host), s.processed, 0, [], draws);
    assert |draws| - |o.rest| == f.used;
    assert o.state.features[|s.features|..] == f.features;
    assert Caster(host)(draws[i]) == RayAt(host.scene, ViewportDistance(host.scene.corners), draws[i]);
    FillBatchFeaturesComplete(Caster(host), s.processed, 0, [], draws, i, k);
  }

  /** What a batch does with the inner loop's result: it takes the loop's
      processed set, keeps the new features after the old ones and
      consumes the draws the loop consumed; a batch that does not reach
      the loop changes neither and consumes nothing. */
  lemma BatchUsesFill(s: Scheduler, host: Host, draws: seq<real>)
    ensures var o := Batch(s, host, draws);
            var f := FillBatch(Caster(host), s.processed, 0, [], draws);
            if Active(s, host) && host.fault != ViewportFault then
              o.state.processed == f.processed && o.state.features == s.features + f.features
              && |draws| - |o.rest| == f.used
            else
              o.state.processed == s.processed && o.state.features == s.features && |draws| - |o.rest| == 0
  {
  }

  /** Every cast ray lists its segments in order, each running forward. */
  lemma CasterRaysOrdered(host: Host)
    ensures forall a :: Ordered(Caster(host)(a))
    ensures forall a, k :: 0 <= k < |Caster(host)(a)| ==> Caster(host)(a)[k].start <= Caster(host)(a)[k].end
  {
  }

  /** No feature a batch adds is listed twice. */
  lemma BatchNoDup(s: Scheduler, host: Host, draws: seq<real>)
    ensures NoRepeats(Batch(s, host, draws).state.features[|s.features|..])
  {
    var cast := Caster(host);
    var o := Batch(s, host, draws);
    BatchUsesFill(s, host, draws);
    if Active(s, host) && host.fault != ViewportFault {
      var f := FillBatch(cast, s.processed, 0, [], draws);
      CasterRaysOrdered(host);
      FillBatchNoDup(cast, s.processed, 0, [], draws);
      assert f.features[0..] == f.features;
      assert o.state.features == s.features + f.features;
      assert o.state.features[|s.features|..] == f.features;
    } else {
      assert o.state.features[|s.features|..] == [];
    }
  }

  /** An active batch that does not run the oracle dry casts a full batch
      of new bearings, or as many as the run still needs. */
  lemma BatchProgress(s: Scheduler, host: Host, draws: seq<real>)
    requires Active(s, host) && host.fault != ViewportFault
    requires |s.processed| <= TOTAL_ANGLES
    requires Batch(s, host, draws).rest != []
    ensures |Batch(s, host, draws).state.processed|
            == Min(|s.processed| + ANGLES_PER_ITERATION, TOTAL_ANGLES)
  {
    FillBatchCounts(Caster(host), s.processed, 0, [], draws);
    FillBatchStopsWhenFull(Caster(host), s.processed, 0, [], draws);
  }

  /** Starting a run drops whatever an earlier run left behind, cancels
      its timer and runs the first batch at once. */
  function Start(s: Scheduler, host: Host, draws: seq<real>): (o: Outcome)
    ensures |o.rest| <= |draws|
    ensures o.state.processed == RoundedSet(draws[..|draws| - |o.rest|])
    ensures forall f :: f in o.state.features ==>
              f.bearing in draws[..|draws| - |o.rest|]
              && f.segment in RayAt(host.scene, ViewportDistance(host.scene.corners), f.bearing)
  {
    var blank := Scheduler(true, false, {}, []);
    BatchRecordsDraws(blank, host, draws);
    BatchFeaturesFromRays(blank, host, draws);
    assert Batch(blank, host, draws).state.features[|blank.features|..]
           == Batch(blank, host, draws).state.features;
    assert {} + RoundedSet(draws[..|draws| - |Batch(blank, host, draws).rest|])
           == RoundedSet(draws[..|draws| - |Batch(blank, host, draws).rest|]);
    Batch(blank, host, draws)
  }

  /** Starting without loaded terrain or without a vantage point (a pan
      before the first click, say) leaves an empty run that is on, has no
      batch scheduled, and consumes no draw. */
  lemma StartWithoutViewIsEmpty(s: Scheduler, host: Host, draws: seq<real>)
    requires !host.scene.terrainLoaded || !host.hasVantage
    ensures Start(s, host, draws) == Outcome(Scheduler(true, false, {}, []), draws)
  {
  }

  /** Every segment of the ray of each draw the first batch consumed
      with a rounded value new among the draws is a feature of the run,
      unless reading the view failed. */
  lemma StartFeaturesComplete(s: Scheduler, host: Host, draws: seq<real>, i: nat, k: nat)
    requires host.scene.terrainLoaded && host.hasVantage && host.fault != ViewportFault
    requires i < |draws| - |Start(s, host, draws).rest|
    requires RoundTenths(draws[i]) !in RoundedSet(draws[..i])
    requires k < |RayAt(host.scene, ViewportDistance(host.scene.corners), draws[i])|
    ensures Feature(draws[i], RayAt(host.scene, ViewportDistance(host.scene.corners), draws[i])[k])
            in Start(s, host, draws).state.features
  {
    var blank := Scheduler(true, false, {}, []);
    StartIsFirstBatch(s, host, draws);
    assert {} + RoundedSet(draws[..i]) == RoundedSet(draws[..i]);
    BatchFeaturesComplete(blank, host, draws, i, k);
  }

  /** Starting runs the first batch on an empty run that is on. */
  lemma StartIsFirstBatch(s: Scheduler, host: Host, draws: seq<real>)
    ensures Start(s, host, draws) == Batch(Scheduler(true, false, {}, []), host, draws)
  {
  }

  /** No feature of a new run is listed twice. */
  lemma StartNoDup(s: Scheduler, host: Host, draws: seq<real>)
    ensures NoRepeats(Start(s, host, draws).state.features)
  {
    var blank := Scheduler(true, false, {}, []);
    StartIsFirstBatch(s, host, draws);
    BatchNoDup(blank, host, draws);
    assert Batch(blank, host, draws).state.features[|blank.features|..] == Batch(blank, host, draws).state.features;
  }

  /** Stopping ends the run and cancels the scheduled batch; the
      bearings and features drawn so far stay. */
  function Stop(s: Scheduler): (r: Scheduler)
    ensures !r.running && !r.timerArmed
    ensures r.processed == s.processed && r.features == s.features
  {
    s.(running := false, timerArmed := false)
  }

  /** The timer fires: if a batch is scheduled, it runs; otherwise
      nothing happens. */
  function Tick(s: Scheduler, host: Host, draws: seq<real>): (o: Outcome)
    ensures s.processed <= o.state.processed && s.features <= o.state.features
    ensures |o.rest| <= |draws|
    ensures |o.state.processed| <= |s.processed| + ANGLES_PER_ITERATION
    ensures o.state.running ==> s.running
    ensures !s.timerArmed ==> o == Outcome(s, draws)
  {
    if s.timerArmed then Batch(s.(timerArmed := false), host, draws) else Outcome(s, draws)
  }

  /** The timer fires `ticks` times in a row against the same host. */
  function RunTicks(s: Scheduler, host: Host, draws: seq<real>, ticks: nat): (o: Outcome)
    ensures s.processed <= o.state.processed && s.features <= o.state.features
    ensures |o.rest| <= |draws|
    ensures |o.state.processed| <= |s.processed| + ANGLES_PER_ITERATION * ticks
    ensures o.state.running ==> s.running
    decreases ticks
  {
    if ticks == 0 then Outcome(s, draws)
    else
      var t := Tick(s, host, draws);
      RunTicks(t.state, host, t.rest, ticks - 1)
  }

  /** A stopped run stays stopped: no later tick changes it. */
  lemma {:induction false} StoppedRunStaysStopped(s: Scheduler, host: Host, draws: seq<real>, ticks: nat)
    ensures RunTicks(Stop(s), host, draws, ticks) == Outcome(Stop(s), draws)
    decreases ticks
  {
    if ticks > 0 {
      StoppedRunStaysStopped(s, host, draws, ticks - 1);
    }
  }

  /** A run between batches, whose timer is armed exactly while it is on
      and it is on exactly while it is short of TOTAL_ANGLES. */
  predicate Steady(s: Scheduler) {
    s.timerArmed == s.running && (s.running <==> |s.processed| < TOTAL_ANGLES)
  }

  /** Against a fault-free host, a steady run that has cast
      `min(45 * k, 3000)` bearings casts 45 more at every tick, as long as
      the oracle does not run dry. */
  lemma {:induction false} RunTicksProgress(s: Scheduler, host: Host, draws: seq<real>, k: nat, ticks: nat)
    requires host.scene.terrainLoaded && host.hasVantage && host.fault == NoFault
    requires Steady(s) && |s.processed| == Min(ANGLES_PER_ITERATION * k, TOTAL_ANGLES)
    requires RunTicks(s, host, draws, ticks).rest != []
    ensures var o := RunTicks(s, host, draws, ticks);
            Steady(o.state) && |o.state.processed| == Min(ANGLES_PER_ITERATION * (k + ticks), TOTAL_ANGLES)
    decreases ticks
  {
    if ticks > 0 {
      var t := Tick(s, host, draws);
      if s.timerArmed {
        var s' := s.(timerArmed := false);
        BatchProgress(s', host, draws);
      }
      RunTicksProgress(t.state, host, t.rest, k + 1, ticks - 1);
    }
  }

  /** Against a fault-free host, a first batch that does not run the
      oracle dry leaves a steady run with 45 bearings cast. */
  lemma StartCastsFirstBatch(s: Scheduler, host: Host, draws: seq<real>)
    requires host.scene.terrainLoaded && host.hasVantage && host.fault == NoFault
    requires Start(s, host, draws).rest != []
    ensures Steady(Start(s, host, draws).state)
    ensures |Start(s, host, draws).state.processed| == ANGLES_PER_ITERATION
  {
    var blank := Scheduler(true, false, {}, []);
    StartIsFirstBatch(s, host, draws);
    BatchProgress(blank, host, draws);
  }

  /** A steady run against a fault-free host whose oracle never runs dry
      is complete once 67 batches' worth of ticks have passed (the first
      batch and 66 ticks after `Start`): all 3000 bearings are cast and
      nothing more is scheduled. */
  lemma RunCompletes(s: Scheduler, host: Host, draws: seq<real>, k: nat, ticks: nat)
    requires host.scene.terrainLoaded && host.hasVantage && host.fault == NoFault
    requires Steady(s) && |s.processed| == Min(ANGLES_PER_ITERATION * k, TOTAL_ANGLES)
    requires k + ticks >= 67
    requires RunTicks(s, host, draws, ticks).rest != []
    ensures var o := RunTicks(s, host, draws, ticks);
            |o.state.processed| == TOTAL_ANGLES && !o.state.running && !o.state.timerArmed
  {
    RunTicksProgress(s, host, draws, k, ticks);
  }
}

=== FILE: ray.dfy ===
/** Casting one ray: where it is sampled, how a failure while sampling
    degrades it, and which segments it reports as blocked.

    The geodesy (destination point along the bearing), the elevation
    query, the curvature correction and the `atan2` that together turn a
    sample distance into an elevation angle are folded into one `sight`
    oracle per ray: it maps a distance along the ray to the sample's
    elevation angle, or to `Fault` when computing it throws. */
module Ray {
  import opened Wrappers
  import opened Horizon
  import Arith

  /** Number of intervals each ray is cut into; a ray has one more sample. */
  const SAMPLE_POINTS: nat := 800

  /** What computing one sample yields: its elevation angle, or a throw. */
  datatype Probe = Sight(angle: real) | Fault

  /** Distance from the observer of sample `i` on a ray of length `maxDistance`. */
  function SampleDistance(maxDistance: real, i: nat): real {
    maxDistance * (i as real) / (SAMPLE_POINTS as real)
  }

  /** Samples run from the observer to the end of the ray, in order. */
  lemma SampleDistancesSpanRay(maxDistance: real, i: nat, j: nat)
    ensures SampleDistance(maxDistance, 0) == 0.0
    ensures SampleDistance(maxDistance, SAMPLE_POINTS) == maxDistance
    ensures 0.0 <= maxDistance && i <= j ==> SampleDistance(maxDistance, i) <= SampleDistance(maxDistance, j)
    ensures 0.0 < maxDistance && 0 < i ==> 0.0 < SampleDistance(maxDistance, i)
  {
    if 0.0 <= maxDistance && i <= j {
      Arith.MulLeft(maxDistance, i as real, j as real);
    }
    if 0.0 < maxDistance && 0 < i {
      Arith.MulSameSign(maxDistance, i as real);
    }
  }

  /** The probes of the samples 0 .. SAMPLE_POINTS of a ray, nearest first. */
  function Probes(maxDistance: real, sight: real -> Probe): (ps: seq<Probe>)
    ensures |ps| == SAMPLE_POINTS + 1
    ensures forall i :: 0 <= i < |ps| ==> ps[i] == sight(SampleDistance(maxDistance, i))
  {
    seq(SAMPLE_POINTS + 1, (i: int) requires 0 <= i => sight(SampleDistance(maxDistance, i)))
  }

  /** The angles of all probes, or `None` as soon as one of them throws. */
  function Collect(probes: seq<Probe>): (r: Option<seq<real>>)
    ensures r.None? <==> exists i :: 0 <= i < |probes| && probes[i].Fault?
    ensures r.Some? ==> |r.value| == |probes|
    ensures r.Some? ==> forall i :: 0 <= i < |probes| ==> probes[i] == Sight(r.value[i])
  {
    if probes == [] then Some([])
    else match probes[0]
      case Fault => None
      case Sight(a) =>
        match Collect(probes[1..])
        case None => None
        case Some(rest) => Some([a] + rest)
  }

  /** The angle of a probe, 0 for a fault (used only where none faults). */
  function AngleOf(p: Probe): real {
    match p
    case Sight(a) => a
    case Fault => 0.0
  }

  /** The elevation angles of the samples of a ray. */
  function SightAngles(maxDistance: real, sight: real -> Probe): (angles: seq<real>)
    ensures |angles| == SAMPLE_POINTS + 1
    ensures forall i :: 0 <= i < |angles| ==> angles[i] == AngleOf(sight(SampleDistance(maxDistance, i)))
  {
    seq(SAMPLE_POINTS + 1, (i: int) requires 0 <= i => AngleOf(sight(SampleDistance(maxDistance, i))))
  }

  /** `castRay`: the blocked segments of one ray. With the terrain not yet
      loaded, or when any sample throws, the ray reports nothing. */
  function CastRay(terrainLoaded: bool, maxDistance: real, sight: real -> Probe): (segs: seq<Segment>)
    ensures !terrainLoaded ==> segs == []
    ensures (exists i :: 0 <= i <= SAMPLE_POINTS && sight(SampleDistance(maxDistance, i)).Fault?) ==> segs == []
    ensures terrainLoaded && (forall i :: 0 <= i <= SAMPLE_POINTS ==> sight(SampleDistance(maxDistance, i)).Sight?)
            ==> segs == RaySegments(SightAngles(maxDistance, sight))
                && DescribesRuns(SightAngles(maxDistance, sight), segs)
    ensures forall k :: 0 <= k < |segs| ==> segs[k].start < segs[k].end <= SAMPLE_POINTS
    ensures Ordered(segs)
  {
    if !terrainLoaded then []
    else
      var probes := Probes(maxDistance, sight);
      match Collect(probes)
      case None =>
        []
      case Some(angles) =>
        assert angles == SightAngles(maxDistance, sight) by {
          forall i | 0 <= i < |angles|
            ensures angles[i] == SightAngles(maxDistance, sight)[i]
          {
            assert probes[i] == Sight(angles[i]);
          }
        }
        RaySegments(angles)
  }

  /** The probe with its angle moved along the scale `f`. */
  function Rescale(f: real -> real, p: Probe): Probe {
    match p
    case Sight(a) => Sight(f(a))
    case Fault => Fault
  }

  /** Passing the samples' elevation angles through any strictly
      increasing function (the arctangent of a slope instead of the slope,
      say) does not change the segments a ray reports. */
  lemma CastRayFollowsOrder(terrainLoaded: bool, maxDistance: real, sight: real -> Probe, f: real -> real)
    requires forall x, y :: x < y ==> f(x) < f(y)
    ensures CastRay(terrainLoaded, maxDistance, d => Rescale(f, sight(d))) == CastRay(terrainLoaded, maxDistance, sight)
  {
    var sight' := d => Rescale(f, sight(d));
    forall i | 0 <= i <= SAMPLE_POINTS
      ensures sight'(SampleDistance(maxDistance, i)).Fault? == sight(SampleDistance(maxDistance, i)).Fault?
    {
    }
    if terrainLoaded && forall i :: 0 <= i <= SAMPLE_POINTS ==> sight(SampleDistance(maxDistance, i)).Sight? {
      var a := SightAngles(maxDistance, sight);
      var b := SightAngles(maxDistance, sight');
      forall i | 0 <= i < |a|
        ensures b[i] == f(a[i])
      {
        assert sight(SampleDistance(maxDistance, i)) == Sight(a[i]);
      }
      forall i, j | 0 <= j < i < |a|
        ensures a[i] < a[j] <==> b[i] < b[j]
      {
        if a[j] <= a[i] && a[j] != a[i] {
          assert f(a[j]) < f(a[i]);
        }
      }
      RaySegmentsFollowOrder(a, b);
    }
  }
}

=== FILE: sweep.dfy ===
/** The full sweep: one ray per bearing 0, step, 2*step, ... below 360
    degrees, each blocked segment turned into a two-vertex line feature,
    all collected in ray order. */
module Sweep {
  import opened Horizon
  import opened Ray
  import opened Viewport
  import Arith

  /** Default angular step of the full sweep, in degrees. */
  const DEGREE_STEP: real := 0.5

  /** A line feature: the blocked segment of the ray cast at `bearing`.
      Its two vertices are the ray's sample points `segment.start` and
      `segment.end`. */
  datatype Feature = Feature(bearing: real, segment: Segment)

  /** What the caster looks at: whether the terrain has loaded, the
      viewport corner distances, and the sight oracle of every ray,
      indexed by bearing and then by distance along the ray. */
  datatype Scene = Scene(terrainLoaded: bool, corners: Corners, sight: (real, real) -> Probe)

  /** The blocked segments of the ray cast from the vantage point at `bearing`. */
  function RayAt(scene: Scene, maxDistance: real, bearing: real): seq<Segment> {
    CastRay(scene.terrainLoaded, maxDistance, d => scene.sight(bearing, d))
  }

  /** The bearings k * step (k = k0, k0+1, ...) lying below 360 degrees. */
  function BearingsFrom(step: real, k: nat): (bs: seq<real>)
    requires step > 0.0
    ensures forall i :: 0 <= i < |bs| ==> bs[i] == (k + i) as real * step && bs[i] < 360.0
    ensures (k + |bs|) as real * step >= 360.0
    decreases (360.0 / step).Floor + 1 - k
  {
    if k as real * step >= 360.0 then []
    else
      assert k as real < 360.0 / step by {
        assert (k as real * step) / step == k as real;
      }
      [k as real * step] + BearingsFrom(step, k + 1)
  }

  /** The bearings of the full sweep: every multiple of `step` below 360,
      in increasing order, starting at 0. */
  function Bearings(step: real): (bs: seq<real>)
    requires step > 0.0
    ensures |bs| > 0 && bs[0] == 0.0
    ensures forall i :: 0 <= i < |bs| ==> bs[i] == i as real * step && bs[i] < 360.0
    ensures |bs| as real * step >= 360.0
    ensures forall i, j :: 0 <= i < j < |bs| ==> bs[i] < bs[j]
  {
    var bs := BearingsFrom(step, 0);
    forall i, j | 0 <= i < j < |bs|
      ensures bs[i] < bs[j]
    {
      Arith.MulLeftStrict(step, i as real, j as real);
      assert i as real * step == step * i as real;
      assert j as real * step == step * j as real;
    }
    bs
  }

  /** One feature per segment of the ray at `bearing`, in the ray's order. */
  function FeaturesOf(bearing: real, segs: seq<Segment>): (fs: seq<Feature>)
    ensures |fs| == |segs|
    ensures forall i :: 0 <= i < |fs| ==> fs[i] == Feature(bearing, segs[i])
  {
    seq(|segs|, i requires 0 <= i < |segs| => Feature(bearing, segs[i]))
  }

  /** Features are listed by bearing, and within one bearing in the order
      of their segments along the ray. */
  predicate InRayOrder(fs: seq<Feature>) {
    forall i, j :: 0 <= i < j < |fs| ==>
      fs[i].bearing < fs[j].bearing
      || (fs[i].bearing == fs[j].bearing && fs[i].segment.end < fs[j].segment.start)
  }

  /** The features of all rays, the rays taken in the order of `bearings`. */
  function Assemble(bearings: seq<real>, cast: real -> seq<Segment>): (fs: seq<Feature>)
    ensures forall f :: f in fs ==> f.bearing in bearings && f.segment in cast(f.bearing)
    decreases |bearings|
  {
    if bearings == [] then []
    else FeaturesOf(bearings[0], cast(bearings[0])) + Assemble(bearings[1..], cast)
  }

  /** No feature is listed twice. */
  predicate NoRepeats(fs: seq<Feature>) {
    forall i, j :: 0 <= i < j < |fs| ==> fs[i] != fs[j]
  }

  /** The features of a first ray, then those of the rest. */
  lemma AssembleCons(b: real, bs: seq<real>, cast: real -> seq<Segment>)
    ensures Assemble([b] + bs, cast) == FeaturesOf(b, cast(b)) + Assemble(bs, cast)
  {
    assert ([b] + bs)[1..] == bs;
  }

  /** With pairwise distinct bearings and each ray's segments in order,
      no feature is listed twice. */
  lemma {:induction false} AssembleDistinct(bearings: seq<real>, cast: real -> seq<Segment>)
    requires forall i, j :: 0 <= i < j < |bearings| ==> bearings[i] != bearings[j]
    requires forall b :: Ordered(cast(b))
    requires forall b, k :: 0 <= k < |cast(b)| ==> cast(b)[k].start <= cast(b)[k].end
    ensures NoRepeats(Assemble(bearings, cast))
    decreases |bearings|
  {
    if bearings != [] {
      var b := bearings[0];
      var head := FeaturesOf(b, cast(b));
      var tail := Assemble(bearings[1..], cast);
      var fs := head + tail;
      assert Assemble(bearings, cast) == fs;
      assert forall i, j :: 0 <= i < j < |bearings[1..]| ==> bearings[1..][i] != bearings[1..][j] by {
        forall i, j | 0 <= i < j < |bearings[1..]|
          ensures bearings[1..][i] != bearings[1..][j]
        {
          assert bearings[1..][i] == bearings[i + 1] && bearings[1..][j] == bearings[j + 1];
        }
      }
      AssembleDistinct(bearings[1..], cast);
      forall i, j | 0 <= i < j < |fs|
        ensures fs[i] != fs[j]
      {
        if j < |head| {
          assert fs[i] == head[i] && fs[j] == head[j];
          assert cast(b)[i].end < cast(b)[j].start;
        } else if i < |head| {
          assert fs[i].bearing == b;
          assert fs[j] == tail[j - |head|];
          var m :| 0 <= m < |bearings[1..]| && bearings[1..][m] == fs[j].bearing;
          assert bearings[m + 1] == fs[j].bearing;
        } else {
          assert fs[i] == tail[i - |head|] && fs[j] == tail[j - |head|];
        }
      }
    }
  }

  /** Every segment of every ray appears as a feature. */
  lemma {:induction false} AssembleComplete(bearings: seq<real>, cast: real -> seq<Segment>, i: nat, k: nat)
    requires i < |bearings| && k < |cast(bearings[i])|
    ensures Feature(bearings[i], cast(bearings[i])[k]) in Assemble(bearings, cast)
    decreases |bearings|
  {
    var head := FeaturesOf(bearings[0], cast(bearings[0]));
    assert Assemble(bearings, cast) == head + Assemble(bearings[1..], cast);
    if i == 0 {
      assert head[k] == Feature(bearings[0], cast(bearings[0])[k]);
    } else {
      assert bearings[i] == bearings[1..][i - 1];
      AssembleComplete(bearings[1..], cast, i - 1, k);
    }
  }

  /** With strictly increasing bearings and each ray's segments in order,
      the features come out in ray order. */
  lemma {:induction false} AssembleInRayOrder(bearings: seq<real>, cast: real -> seq<Segment>)
    requires forall i, j :: 0 <= i < j < |bearings| ==> bearings[i] < bearings[j]
    requires forall i :: 0 <= i < |bearings| ==> Ordered(cast(bearings[i]))
    ensures InRayOrder(Assemble(bearings, cast))
    decreases |bearings|
  {
    if bearings != [] {
      var b := bearings[0];
      var head := FeaturesOf(b, cast(b));
      var tail := Assemble(bearings[1..], cast);
      var fs := head + tail;
      assert Assemble(bearings, cast) == fs;
      forall i | 0 <= i < |bearings| - 1
        ensures Ordered(cast(bearings[1..][i]))
      {
        assert bearings[1..][i] == bearings[i + 1];
      }
      AssembleInRayOrder(bearings[1..], cast);
      forall f | f in tail
        ensures b < f.bearing
      {
        var j :| 0 <= j < |bearings[1..]| && bearings[1..][j] == f.bearing;
        assert bearings[j + 1] == f.bearing;
      }
      assert Ordered(cast(b));
      forall i, j | 0 <= i < j < |fs|
        ensures fs[i].bearing < fs[j].bearing
                || (fs[i].bearing == fs[j].bearing && fs[i].segment.end < fs[j].segment.start)
      {
        if j < |head| {
          assert fs[i] == head[i] && fs[j] == head[j];
        } else if i < |head| {
          assert fs[i].bearing == b;
          assert fs[j] == tail[j - |head|];
          assert fs[j] in tail;
        } else {
          assert fs[i] == tail[i - |head|] && fs[j] == tail[j - |head|];
        }
      }
    }
  }

  /** How `generateLineOfSightGeoJSON` settles: `null` without a vantage
      point, a rejection when reading the vantage point or the viewport
      throws, or the collection of features. */
  datatype LineOfSight = NoVantage | Rejected | Collection(features: seq<Feature>)

  /** `generateLineOfSightGeoJSON`: no result without a vantage point; a
      rejection when reading the view throws (`viewportThrows`), which no
      `try` around it catches; otherwise the features of every ray of the
      sweep, in ray order, and nothing else. */
  function GenerateLineOfSight(hasVantage: bool, viewportThrows: bool, scene: Scene, degreeStep: real): (r: LineOfSight)
    requires degreeStep > 0.0
    ensures r.NoVantage? <==> !hasVantage
    ensures r.Rejected? <==> hasVantage && viewportThrows
    ensures r.Collection? && !scene.terrainLoaded ==> r.features == []
    ensures r.Collection? ==> InRayOrder(r.features)
    ensures r.Collection? ==> forall f :: f in r.features ==>
              (f.bearing in Bearings(degreeStep)
               && f.segment in RayAt(scene, ViewportDistance(scene.corners), f.bearing))
  {
    if !hasVantage then NoVantage
    else if viewportThrows then Rejected
    else
      var maxDistance := ViewportDistance(scene.corners);
      var cast := b => RayAt(scene, maxDistance, b);
      var fs := Assemble(Bearings(degreeStep), cast);
      AssembleInRayOrder(Bearings(degreeStep), cast);
      assert !scene.terrainLoaded ==> fs == [] by {
        if !scene.terrainLoaded {
          NoRaysNoFeatures(Bearings(degreeStep), cast);
        }
      }
      Collection(fs)
  }

  /** The default sweep, one ray every `DEGREE_STEP` degrees, casts 720 rays. */
  lemma DefaultSweepCasts720Rays()
    ensures |Bearings(DEGREE_STEP)| == 720
  {
    var bs := Bearings(DEGREE_STEP);
    assert bs[|bs| - 1] < 360.0;
  }

  /** Rays that report nothing yield no features. */
  lemma {:induction false} NoRaysNoFeatures(bearings: seq<real>, cast: real -> seq<Segment>)
    requires forall i :: 0 <= i < |bearings| ==> cast(bearings[i]) == []
    ensures Assemble(bearings, cast) == []
    decreases |bearings|
  {
    if bearings != [] {
      assert forall i :: 0 <= i < |bearings| - 1 ==> bearings[1..][i] == bearings[i + 1];
      NoRaysNoFeatures(bearings[1..], cast);
    }
  }

  /** Every blocked segment of every ray of the sweep is drawn. */
  lemma GenerateLineOfSightComplete(scene: Scene, degreeStep: real, i: nat, k: nat)
    requires degreeStep > 0.0
    requires i < |Bearings(degreeStep)|
    requires k < |RayAt(scene, ViewportDistance(scene.corners), Bearings(degreeStep)[i])|
    ensures GenerateLineOfSight(true, false, scene, degreeStep).Collection?
    ensures Feature(Bearings(degreeStep)[i], RayAt(scene, ViewportDistance(scene.corners), Bearings(degreeStep)[i])[k])
            in GenerateLineOfSight(true, false, scene, degreeStep).features
  {
    var maxDistance := ViewportDistance(scene.corners);
    AssembleComplete(Bearings(degreeStep), b => RayAt(scene, maxDistance, b), i, k);
  }
}

=== FILE: terrain.dfy ===
/** Rays over flat terrain: what the curvature correction alone does to
    the elevation angles of a ray's samples.

    With the ground at one constant elevation everywhere, a sample `d`
    metres out lies `h + CurvatureDrop(d)` metres below the observer's
    eye, so its elevation angle is `atan2(-(h + drop), d)`. For `d > 0`
    that is the arctangent of the slope below. The arctangent is strictly
    increasing, so by `Ray.CastRayFollowsOrder` the ray reports the same
    segments whether its samples carry slopes or angles, and the slope
    stands in for the angle here. The sample at the observer (`d = 0`)
    looks straight down, at an angle given as `nadir`. */
module Terrain {
  import opened Horizon
  import opened Ray
  import opened Curvature
  import Arith

  /** Default eye height of the observer above the ground, in metres. */
  const OBSERVER_HEIGHT: real := 1.8

  /** Tangent of the elevation angle from an eye `h` metres above flat
      ground to the curvature-lowered ground `d` metres away. */
  function FlatSlope(h: real, d: real): real
    requires d > 0.0
  {
    (-h - CurvatureDrop(d)) / d
  }

  /** The sight oracle of a ray over flat ground. */
  function FlatSight(h: real, nadir: real): real -> Probe {
    d => if d > 0.0 then Sight(FlatSlope(h, d)) else Sight(nadir)
  }

  lemma CrossCompare(y1: real, d1: real, y2: real, d2: real)
    requires d1 > 0.0 && d2 > 0.0
    ensures y2 / d2 < y1 / d1 <==> y2 * d1 < y1 * d2
  {
    var q1 := y1 / d1;
    var q2 := y2 / d2;
    assert y1 == q1 * d1;
    assert y2 == q2 * d2;
    assert y2 * d1 == q2 * (d1 * d2);
    assert y1 * d2 == q1 * (d1 * d2);
    var p := d1 * d2;
    assert p > 0.0;
  }

  lemma CrossGap(h: real, d1: real, d2: real)
    ensures (-h - CurvatureDrop(d2)) * d1 - (-h - CurvatureDrop(d1)) * d2
            == (d2 - d1) * (h - d1 * d2 / (2.0 * EARTH_RADIUS))
  {
    var a := 2.0 * EARTH_RADIUS;
    assert CurvatureDrop(d2) * d1 == d1 * d2 * d2 / a;
    assert CurvatureDrop(d1) * d2 == d1 * d2 * d1 / a;
  }

  lemma NegativeProduct(x: real, y: real)
    requires x > 0.0
    ensures x * y < 0.0 <==> y < 0.0
  {
    if y < 0.0 {
      assert x * y == -(x * (-y));
      assert x * (-y) > 0.0;
    } else {
      assert x * y >= 0.0;
    }
  }

  /** The flat-ground horizon: of two samples at distances d1 < d2, the
      farther one lies below the nearer one's line of sight exactly when
      d1 * d2 exceeds 2 R h. Below that product the ground still rises
      into view; above it, the Earth's curvature hides it. */
  lemma FlatHorizonOrder(h: real, d1: real, d2: real)
    requires 0.0 < d1 < d2
    ensures FlatSlope(h, d2) < FlatSlope(h, d1) <==> 2.0 * EARTH_RADIUS * h < d1 * d2
  {
    CrossCompare(-h - CurvatureDrop(d1), d1, -h - CurvatureDrop(d2), d2);
    CrossGap(h, d1, d2);
    NegativeProduct(d2 - d1, h - d1 * d2 / (2.0 * EARTH_RADIUS));
  }

  /** The angles of a flat-ground ray's samples: the nadir at the
      observer, then the slopes. */
  lemma FlatSightAngles(h: real, nadir: real, maxDistance: real, i: nat)
    requires 0.0 < maxDistance && i <= SAMPLE_POINTS
    ensures 0 < i ==> 0.0 < SampleDistance(maxDistance, i)
    ensures SightAngles(maxDistance, FlatSight(h, nadir))[i]
            == if i == 0 then nadir else FlatSlope(h, SampleDistance(maxDistance, i))
  {
    SampleDistancesSpanRay(maxDistance, i, i);
  }

  /** The horizon rule on a ray's sample grid. */
  lemma FlatSampleOrder(h: real, maxDistance: real, i: nat, j: nat)
    requires 0.0 < maxDistance && 0 < i < j
    ensures 0.0 < SampleDistance(maxDistance, i) < SampleDistance(maxDistance, j)
    ensures FlatSlope(h, SampleDistance(maxDistance, j)) < FlatSlope(h, SampleDistance(maxDistance, i))
            <==> 2.0 * EARTH_RADIUS * h < SampleDistance(maxDistance, i) * SampleDistance(maxDistance, j)
  {
    SampleDistancesSpanRay(maxDistance, i, j);
    Arith.ScaleStrict(maxDistance, i as real, j as real, SAMPLE_POINTS as real);
    FlatHorizonOrder(h, SampleDistance(maxDistance, i), SampleDistance(maxDistance, j));
  }

  /** Within the horizon distance, the samples of a flat-ground ray rise. */
  lemma FlatSamplesRise(h: real, maxDistance: real, i: nat, j: nat)
    requires 0.0 < maxDistance && maxDistance * maxDistance <= 2.0 * EARTH_RADIUS * h
    requires 0 < i < j <= SAMPLE_POINTS
    ensures 0.0 < SampleDistance(maxDistance, i) < SampleDistance(maxDistance, j)
    ensures FlatSlope(h, SampleDistance(maxDistance, i)) <= FlatSlope(h, SampleDistance(maxDistance, j))
  {
    FlatSampleOrder(h, maxDistance, i, j);
    SampleDistancesSpanRay(maxDistance, j, SAMPLE_POINTS);
    Arith.ProductBelowSquare(SampleDistance(maxDistance, i), SampleDistance(maxDistance, j), maxDistance);
  }

  /** A flat-ground ray no longer than the horizon distance sqrt(2 R h)
      reports no blocked segment: every sample rises into view. */
  lemma FlatRayWithinHorizonIsClear(h: real, nadir: real, maxDistance: real)
    requires 0.0 < maxDistance && maxDistance * maxDistance <= 2.0 * EARTH_RADIUS * h
    requires nadir <= FlatSlope(h, maxDistance / (SAMPLE_POINTS as real))
    ensures CastRay(true, maxDistance, FlatSight(h, nadir)) == []
  {
    var sight := FlatSight(h, nadir);
    var angles := SightAngles(maxDistance, sight);
    var segs := CastRay(true, maxDistance, sight);
    forall i | 0 <= i <= SAMPLE_POINTS
      ensures sight(SampleDistance(maxDistance, i)).Sight?
    {
    }
    assert DescribesRuns(angles, segs);
    forall i, j | 0 < i < j <= SAMPLE_POINTS
      ensures angles[i] <= angles[j]
    {
      FlatSightAngles(h, nadir, maxDistance, i);
      FlatSightAngles(h, nadir, maxDistance, j);
      FlatSamplesRise(h, maxDistance, i, j);
    }
    forall j | 0 < j <= SAMPLE_POINTS
      ensures angles[0] <= angles[j]
    {
      FlatSightAngles(h, nadir, maxDistance, 0);
      FlatSightAngles(h, nadir, maxDistance, 1);
      assert SampleDistance(maxDistance, 1) == maxDistance / (SAMPLE_POINTS as real);
      if j > 1 {
        assert angles[1] <= angles[j];
      }
    }
    NonDecreasingProfileHasNoRuns(angles, segs);
  }

  /** On a flat-ground ray, a sample whose distance multiplied by that of
      some nearer sample exceeds 2 R h is blocked by the curvature alone:
      some reported segment covers it. */
  lemma FlatRayBeyondHorizonIsBlocked(h: real, nadir: real, maxDistance: real, i: nat, j: nat)
    requires 0.0 < maxDistance && 0 < i < j <= SAMPLE_POINTS
    requires 2.0 * EARTH_RADIUS * h < SampleDistance(maxDistance, i) * SampleDistance(maxDistance, j)
    ensures Covered(CastRay(true, maxDistance, FlatSight(h, nadir)), j)
  {
    var sight := FlatSight(h, nadir);
    var angles := SightAngles(maxDistance, sight);
    var segs := CastRay(true, maxDistance, sight);
    forall k | 0 <= k <= SAMPLE_POINTS
      ensures sight(SampleDistance(maxDistance, k)).Sight?
    {
    }
    FlatSightAngles(h, nadir, maxDistance, i);
    FlatSightAngles(h, nadir, maxDistance, j);
    FlatSampleOrder(h, maxDistance, i, j);
    BlockedIffTallerEarlier(angles, j);
    assert BlockedFlags(angles)[j];
  }

  /** At the default eye height, every flat-ground ray of 25 km or more
      (the 100 km ceiling included) is blocked at its far end: the
      curvature alone hides it behind the sample a twentieth of the way
      out. */
  lemma DefaultObserverFlatRayIsBlocked(nadir: real, maxDistance: real)
    requires 25000.0 <= maxDistance
    ensures Covered(CastRay(true, maxDistance, FlatSight(OBSERVER_HEIGHT, nadir)), SAMPLE_POINTS)
  {
    var near := SampleDistance(maxDistance, 40);
    assert near == maxDistance / 20.0;
    SampleDistancesSpanRay(maxDistance, 40, SAMPLE_POINTS);
    Arith.MulLeft(near, 25000.0, maxDistance);
    Arith.MulLeft(25000.0, 1250.0, near);
    assert near * 25000.0 == 25000.0 * near;
    FlatRayBeyondHorizonIsBlocked(OBSERVER_HEIGHT, nadir, maxDistance, 40, SAMPLE_POINTS);
  }

  /** At the default eye height, every flat-ground ray of at most 4.7 km
      is clear. */
  lemma DefaultObserverShortFlatRayIsClear(nadir: real, maxDistance: real)
    requires 0.0 < maxDistance <= 4700.0
    requires nadir <= FlatSlope(OBSERVER_HEIGHT, maxDistance / (SAMPLE_POINTS as real))
    ensures CastRay(true, maxDistance, FlatSight(OBSERVER_HEIGHT, nadir)) == []
  {
    Arith.ProductBelowSquare(maxDistance, maxDistance, 4700.0);
    FlatRayWithinHorizonIsClear(OBSERVER_HEIGHT, nadir, maxDistance);
  }
}

=== FILE: viewport.dfy ===
/** The ray length needed to cover the visible map area. */
module Viewport {

  /** Ceiling on the length of every ray, in metres (100 km). */
  const MAX_LINE_LENGTH_METERS: real := 100000.0

  /** Distances in metres from the vantage point to the four viewport
      corners; the great-circle distance itself is computed by the map
      library and is an input here. */
  datatype Corners = Corners(ne: real, nw: real, se: real, sw: real) {
    function Distances(): seq<real> {
      [ne, nw, se, sw]
    }
  }

  /** The largest of the four corner distances (`Math.max` over them). */
  function Farthest(c: Corners): (m: real)
    ensures m in c.Distances()
    ensures forall d :: d in c.Distances() ==> d <= m
  {
    var m1 := if c.ne < c.nw then c.nw else c.ne;
    var m2 := if m1 < c.se then c.se else m1;
    if m2 < c.sw then c.sw else m2
  }

  /** The largest corner distance, capped at the ceiling (`Math.min`). */
  function ViewportDistance(c: Corners): (r: real)
    ensures r <= MAX_LINE_LENGTH_METERS
    ensures r == MAX_LINE_LENGTH_METERS || r in c.Distances()
    ensures forall d :: d in c.Distances() ==> d <= r || r == MAX_LINE_LENGTH_METERS
  {
    var largest := Farthest(c);
    if largest < MAX_LINE_LENGTH_METERS then largest else MAX_LINE_LENGTH_METERS
  }

  /** When every corner lies within the ceiling, the result is exactly the
      farthest corner's distance. */
  lemma ViewportDistanceIsFarthestCorner(c: Corners)
    requires forall d :: d in c.Distances() ==> d <= MAX_LINE_LENGTH_METERS
    ensures ViewportDistance(c) in c.Distances()
    ensures forall d :: d in c.Distances() ==> d <= ViewportDistance(c)
  {
  }

  /** When some corner lies beyond the ceiling, the result is the ceiling. */
  lemma ViewportDistanceIsCeiling(c: Corners)
    requires exists d :: d in c.Distances() && d > MAX_LINE_LENGTH_METERS
    ensures ViewportDistance(c) == MAX_LINE_LENGTH_METERS
  {
  }

  /** Corner distances are never negative, and neither is the result. */
  lemma ViewportDistanceNonNegative(c: Corners)
    requires forall d :: d in c.Distances() ==> d >= 0.0
    ensures ViewportDistance(c) >= 0.0
  {
  }
}

=== FILE: wrappers.dfy ===
/** An optional value, shared by the other modules. */
module Wrappers {

  /** A value that may be absent: the source's `null` returns and its
      `currentSegment = null` state. */
  datatype Option<+T> = None | Some(value: T)

  /** The list holding the value of `o`, or the empty list. */
  function ToSeq<T>(o: Option<T>): (s: seq<T>)
    ensures |s| <= 1
    ensures o.Some? <==> |s| == 1
    ensures o.Some? ==> s[0] == o.value
  {
    match o
    case None => []
    case Some(v) => [v]
  }
}
